=== FILE: README.md ===
# A verified model of a schema-driven REST router and its field scopes

This project models, in Dafny, the core of a small Node.js API router with two parts.

The first part is the **router**, `lib/Router.js`:
- `route(pattern, schema, handlers)` registers resources in order.
- `handle(request)` dispatches a request:
  - it takes the first route whose pattern matches the resource id;
  - it binds the pattern's parameters, coercing `integer` properties with `parseInt` and `number` properties with `parseFloat`;
  - it answers `OPTIONS` from the handler keys;
  - it picks the whole handler or the partial handlers that overlap the requested props;
  - it merges the handlers' results with lodash `merge`;
  - it projects the merged result onto the requested props, keeping `$` fields and backfilling absent props from truthy parameters;
  - it validates the result against the schema.
- `middleware(options)` wraps `handle` for a connect-style server:
  - it gates requests on a base path;
  - it takes the resource id from the URL and the method from `_method`;
  - it answers 200 or 404.

The second part is the **field scopes**, `lib/SchemaScopes.js`:
- `transformSchema` flattens a JSON schema annotated with `scopes: { read, write }` into one entry per leaf field.
  - Each entry has a dotted path. A step through an array's `items` is rendered with `@`.
  - Each entry's scope sets are inherited from every ancestor.
- `field(name)` looks one entry up.
- `canAccessResource(scopes)` checks the root read scopes.
- `filterProps(requested, scopes)` keeps the fields a set of granted scopes may read.

## Layout

| file | module | contents |
|---|---|---|
| `wrappers.dfy` | `Wrappers` | `Option` and `Result` |
| `strings.dfy` | `Strings` | ASCII case mapping, prefix test, `Array.prototype.join` |
| `sequences.dfy` | `Sequences` | the subsequence relation and the positions a filter keeps |
| `json.dfy` | `Json` | JSON values, JavaScript numbers, request parameters and their truthiness |
| `schema.dfy` | `Schemas` | the JSON-schema tree both parts read |
| `parse_int.dfy` | `JsParseInt` | `parseInt(String(x))` with no radix |
| `merge.dfy` | `Merging` | lodash `merge` on JSON values |
| `router.dfy` | `Router` | `route` and `handle` |
| `router_proofs.dfy` | `RouterProofs` | properties of the route table, OPTIONS, binding, projection and dispatch |
| `middleware.dfy` | `Middleware` | the middleware |
| `middleware_proofs.dfy` | `MiddlewareProofs` | resource-id derivation and the middleware's replies |
| `schema_scopes.dfy` | `SchemaScopes` | `_scopesPerProp`, `transformSchema`, `field`, `canAccessResource`, `filterProps` |
| `schema_scopes_proofs.dfy` | `ScopeIndexProofs` | the flattened index against an independent definition by leaf paths |
| `scope_filter_proofs.dfy` | `ScopeFilterProofs` | the scope-count filter against set containment |

## Parameters and abstractions

Collaborators outside the core are parameters or abstractions:
- **The path-to-regexp compilation** is a `Compiled` value: the parameter keys plus an `imap` from each resource id the pattern's regular expression accepts to its captures. `Register` takes the compiler as a function.
- **The structural schema check** at registration is a predicate parameter.
- **jsen validation** of results is a predicate parameter.
- **`parseFloat`** is a function parameter.
- **Handlers** are callback identifiers. What a callback's value or promise settles to is a function parameter `run`.
- **The parsed URL** is an input: the `_method` query value, the requested props and the initial parameters, as produced by the request parser (`lib/Request.js`, which is not part of this model).

`parseInt` with no radix is modelled in full:
- leading white space, an optional sign, a `0x`/`0X` prefix selecting base 16, and the longest run of digits;
- `NaN` when there are no digits.

The `undefined` that a missing capture leaves is bound as `null`. Both parsers then see the string `"null"`.

## Where the model follows the code rather than the tests

- **OPTIONS method order.** OPTIONS lists the methods in the order of the handler object's keys, then `OPTIONS` (Router.js:102-116). One test expects another order. The model follows the key order (`RouterProofs.OptionsFollowKeyOrder`).
- **DELETE results.** A DELETE result is validated against the schema like any other (Router.js:220-232).
- **Resources with no root read scopes.** `canAccessResource` returns false when the root schema declares no `read` scopes (SchemaScopes.js:7-17).
- **Reuse of `i` and `len`.** The parameter-binding loop reuses the route loop's `i` and `len` (Router.js:74). Every path that reaches it either returns or breaks out of the route loop, so the first matching route is still the one used (`Router.FirstMatch`).
- **A root schema that is itself a leaf.** `_scopesPerProp` then returns one object instead of an array. So `field` and `filterProps` fail on it with a `TypeError` (`SchemaScopes.Index.Single`).

## Model

| member | source | states |
|---|---|---|
| Router.Register | lib/Router.js:29-49 | a schema that fails the structural check is refused with "Invalid schema" and the table is unchanged; otherwise the route is appended after every existing one with its pattern, schema, handlers and compiled matcher |
| RouterProofs.RegisterKeepsEarlierMatches | lib/Router.js:40-46 | registering a route never changes how a resource id already matched by an earlier route is handled |
| Router.FirstMatch | lib/Router.js:65-72 | the chosen route matches the resource id and no earlier route does; there is no route exactly when none matches |
| RouterProofs.FirstMatchExtend | lib/Router.js:65-72 | appending a route keeps an existing first match and otherwise makes the new route the match exactly when it matches |
| RouterProofs.HandleUsesFirstMatchOnly | lib/Router.js:65-72 | dispatch depends only on the first matching route: the outcome is the same with the table reduced to that route |
| Router.Coerce | lib/Router.js:76-91 | a property declared `integer` is bound as `parseInt` of the capture, one declared `number` as `parseFloat` of it, anything else as the capture string; a missing capture becomes `null`, or the parse of `"null"` |
| Router.BindParams | lib/Router.js:74-96 | binding fails exactly when the pattern has parameters and the schema has no `properties`; otherwise the parameters gain exactly the pattern keys, each bound to the coerced value of its last occurrence, and every other parameter is unchanged |
| RouterProofs.BindTwo | lib/Router.js:74-96 | binding two distinct keys against a schema with properties succeeds with exactly those two keys, each coerced from its own capture |
| RouterProofs.BindingCoercesIntegers | lib/Router.js:83-91 | for `/foo/:fooId/:barId` with `fooId` an integer and `barId` a string, the captures "123" and "abc" bind as the number 123 and the string "abc" |
| JsParseInt.ParseInt | lib/Router.js:85-86 | `parseInt` is `NaN` exactly when no digits follow the white space, sign and hex prefix; otherwise it is an integer, negative only after a minus sign |
| JsParseInt.ParseIntRoundTrip | lib/Router.js:85-86 | `parseInt` reads back the decimal rendering of every integer |
| JsParseInt.ParseIntReadsNumeral | lib/Router.js:85-86 | `parseInt` stops at the first non-digit: a decimal numeral followed by anything that is not a digit (and not `x` after a lone 0) reads as that number |
| JsParseInt.ParseIntSkipsSpace | lib/Router.js:85-86 | leading white space never changes what `parseInt` reads |
| JsParseInt.ParseIntOfNull | lib/Router.js:76-86 | a missing capture, parsed as the string "null", gives `NaN` |
| JsParseInt.HexExample | lib/Router.js:85-86 | with no radix, "0x1F" reads as the hexadecimal 31 |
| JsParseInt.SpacedNegative | lib/Router.js:85-86 | "  -7" reads as -7 |
| Router.VerbMethods | lib/Router.js:102-114 | the methods reported are exactly the upper-cased handler keys that are one of get, post, put, patch, delete, in the order of the handler keys; other keys are skipped, and OPTIONS is not among them |
| RouterProofs.VerbMethodsAppend | lib/Router.js:102-114 | the methods of two key lists placed one after the other are the methods of the first followed by those of the second |
| Router.Methods | lib/Router.js:99-121 | the OPTIONS answer lists the verb methods followed by a final `OPTIONS` |
| RouterProofs.AllVerbsListed | lib/Router.js:102-114 | when every key is a verb, one method is listed per key, in key order, upper-cased |
| RouterProofs.OptionsFollowKeyOrder | lib/Router.js:99-121 | handlers keyed post, get, patch, delete, put are reported as POST, GET, PATCH, DELETE, PUT, OPTIONS; a get-only resource as GET, OPTIONS |
| RouterProofs.HandleOptionsDescribes | lib/Router.js:99-121 | an OPTIONS request on a matched route calls no handler and answers with the route's schema and methods |
| RouterProofs.HandleMissingMethod | lib/Router.js:124-126 | a method with no handler key is rejected with "No <method> handler for <resource id>" and no handler is called |
| Router.HandlerFor | lib/Router.js:124-131 | a handler is found exactly when some key equals the lower-cased method, and it is that key's handler |
| Router.SelectPartials | lib/Router.js:133-147 | one callback is called per partial handler whose props overlap the requested props, or per partial handler when no props are requested, in registration order, even when two handlers share a callback |
| RouterProofs.OverlapSelects | lib/Router.js:136-141 | a partial handler whose props overlap the requested props means at least one callback is called |
| Router.Select | lib/Router.js:128-147 | a function handler is called alone; partial handlers are chosen by overlap with the requested props |
| Router.Gather | lib/Router.js:156-165 | the handlers' results are collected in order when every handler fulfils; otherwise the rejection is the first rejected handler's reason |
| Merging.Merge | lib/Router.js:186 | merging two objects keeps the union of their keys, takes each unshared key's value from the object that has it, and merges the values of shared keys recursively; arrays merge index by index to the longer length, merging shared indices recursively; any other pair takes the later value |
| Merging.MergeAll | lib/Router.js:186 | merging no results gives `{}` and merging one result gives that result |
| Merging.FalsyResultsSkipped | lib/Router.js:186 | a falsy result after the first leaves the merged value unchanged |
| Merging.MergeAllPair | lib/Router.js:186 | two results merge as the second merged into the first, unless the second is falsy |
| Merging.MergeAllKeys | lib/Router.js:186 | the merge of several object results has exactly the keys that some result has |
| Merging.MergeIdempotent | lib/Router.js:186 | merging a value into itself changes nothing |
| Merging.DisjointObjectsUnion | lib/Router.js:186 | merging objects with disjoint keys is their union |
| Merging.CollectionsMergePerElement | lib/Router.js:186 | two collections of the same length whose items have disjoint keys merge item by item |
| Merging.PartialCollectionsExample | lib/Router.js:186 | a collection of `bar` fields merged with a collection of `baz` fields gives items with both fields |
| Router.Backfill | lib/Router.js:197-203 | a requested prop absent from the result is filled from a truthy parameter of the same name; present fields are untouched |
| Router.Missing | lib/Router.js:205-217 | the props reported unresolved are exactly the requested props that neither the result nor a truthy parameter supplies |
| Router.OwnFields | lib/Router.js:191-208 | `hasOwnProperty` finds an object's fields; an array's or a string's indices, as decimal strings, and `length`; nothing on `null`, a boolean or a number |
| Router.Project | lib/Router.js:188-218 | with props requested, a prop is missing exactly when the merged result does not own it and no truthy parameter supplies it, and the projection then fails with the message line 216 builds, "Unable to resolve props ... for resource ...", naming every prop still missing; otherwise an object result keeps exactly the requested props and the `$` fields, with the merged or backfilled values; without props the result is unchanged. Only the intended dispatch, `Router.SettleIntended`, delivers that message (see Findings) |
| RouterProofs.ProjectionBackfills | lib/Router.js:191-203 | projection drops an unrequested field, keeps a `$` field, and fills the requested prop from its truthy parameter |
| RouterProofs.ProjectionNamesUnresolved | lib/Router.js:205-217 | two unresolvable props are named, in order and comma separated, in the failure message that line 216 builds; as written, the dispatch throws at line 210 before delivering it (see Findings) |
| Router.Settle | lib/Router.js:156-232 | as written: a handler rejection is reported exactly when some handler rejects; once all fulfil, a result that is an array holding `null` rejects with the `TypeError` of reading its `toRepresentation`; otherwise the outcome resolves with the projection of the merged results exactly when the projection succeeds and its value validates, rejects with the `TypeError` of the unbound `this._eventEmitter` exactly when the projection fails, and otherwise reports the projected value as not validating |
| Router.SettleIntended | lib/Router.js:156-232 | as evidently intended: the same, except that a failed projection rejects with exactly its unresolved-props message |
| Router.Handle | lib/Router.js:58-234 | an unmatched resource id is rejected with "No handlers"; OPTIONS answers the route's schema and methods; a method with no handler key is rejected with "No <method> handler for <resource id>"; "No handlers" on a matched route means nothing was selected; OPTIONS and the early failures call no handler; otherwise exactly the selected handlers are called and the outcome is `Settle` on the request with the bound parameters |
| RouterProofs.GatherAll | lib/Router.js:165 | handlers that all fulfil are gathered into exactly their results, in invocation order |
| RouterProofs.SettleCovered | lib/Router.js:165-232 | handlers that all fulfil with objects covering, with the truthy parameters, every requested prop settle on exactly the requested props and the `$` fields of the merged results, each value from the merge or else from its parameter, and resolve exactly when that value validates |
| RouterProofs.SettleUncovered | lib/Router.js:165-217 | handlers that all fulfil with objects leaving a requested prop unsupplied reject, as written, with the `TypeError` of line 210; the intended dispatch rejects with "Unable to resolve props ... for resource ..." naming it among every missing prop |
| RouterProofs.UnresolvedEmitThrows | lib/Router.js:166-216 | the dispatch as written differs from the intended one exactly when the intended one fails on unresolved props, and then it rejects with the `TypeError` instead |
| RouterProofs.SettleProjectionFails | lib/Router.js:165-216 | results free of `null` items whose projection fails reject with the projection's message as intended, and with the `TypeError` as written |
| RouterProofs.UnresolvedPropExample | lib/Router.js:209-216 | GET `/foo` requesting `zzz` from a handler returning `{ bar: "x" }` rejects with the `TypeError` as written, where "Unable to resolve props zzz for resource /foo" is intended |
| RouterProofs.HandleSettles | lib/Router.js:128-232 | once the handlers are selected, dispatch calls exactly them and settles them on the request with the bound parameters |
| RouterProofs.HandleNoOverlap | lib/Router.js:133-154 | when props are requested and no partial handler's props overlap them, the request is rejected with "No handlers" and nothing is called |
| RouterProofs.HandlePartialsProject | lib/Router.js:133-232 | partial handlers whose results, with the truthy parameters, cover every requested prop give exactly the requested props and the `$` fields of their merged results, each value from the merge or else from its parameter; the request resolves with that value exactly when it validates |
| RouterProofs.HandlePartialsUnresolved | lib/Router.js:133-217 | a requested prop that no partial result and no truthy parameter supplies rejects the request, as written, with the `TypeError` of line 210; the intended dispatch rejects with "Unable to resolve props ... for resource ..." naming it among every missing prop |
| RouterProofs.ProjectCovered | lib/Router.js:186-218 | object results that, with the parameters, cover every requested prop project onto exactly the requested props and the `$` fields |
| RouterProofs.ProjectCollectionUnresolved | lib/Router.js:191-217 | an array result with props requested loses its unrequested indices, so a requested prop that is not `length`, not one of its indices and not a truthy parameter fails the projection, naming it among every missing prop |
| RouterProofs.CollectionPropsExample | lib/Router.js:188-216 | GET `/foos` requesting `bar` from a handler returning `[{ bar: "1" }, { bar: "2" }]` rejects with the `TypeError` as written, where "Unable to resolve props bar for resource /foos" is intended |
| RouterProofs.ProjectUncovered | lib/Router.js:205-217 | a requested prop neither the results nor a truthy parameter supply fails the projection with the unresolved-props message of line 216, which only the intended dispatch delivers |
| RouterProofs.NothingMissing | lib/Router.js:205-210 | when the result or a parameter supplies every requested prop, no prop is left unresolved |
| RouterProofs.HandleSingleHandler | lib/Router.js:128-232 | a route with a function handler for the method, with no props requested, resolves with exactly what the handler returns when that validates, except that an array holding `null` rejects with the `TypeError` of line 170 |
| RouterProofs.HandleExtractsParams | lib/Router.js:58-234 | GET `/foo/123/abc` on `/foo/:fooId/:barId` hands the handler `fooId` as the number 123 and `barId` as the string "abc" |
| Middleware.Gate | lib/Router.js:265-282 | a request outside a non-empty base path is passed to `next`; any other is dispatched with the resource id from the URL, the overriding or original method, and the parsed props and parameters |
| Middleware.StripQuery | lib/Router.js:281 | the resource id stops before the first `?` of a single-line URL and is the URL itself when there is none |
| MiddlewareProofs.ResourceIdIsPath | lib/Router.js:270-281 | the resource id of base path, path and query is the path |
| MiddlewareProofs.ResourceIdAfterBase | lib/Router.js:270-281 | the base path without its trailing slash is cut from the URL and the query from what remains |
| MiddlewareProofs.QueryStopsAtLineBreak | lib/Router.js:281 | the query pattern stops at a line terminator, so text after a line break is kept |
| MiddlewareProofs.DefaultBaseKeepsPath | lib/Router.js:265-281 | with the default base path `/` every URL that starts with `/` is dispatched and only the query is cut |
| Middleware.MethodOf | lib/Router.js:280 | a non-empty `_method` value overrides the request method |
| MiddlewareProofs.MethodOverride | lib/Router.js:280 | `?_method=patch` turns a POST into `patch`; an empty `_method` leaves it POST |
| Middleware.Serve | lib/Router.js:273-294 | requests outside the base path call `next`; a dispatch answers 200 when it succeeds and 404 when it is rejected; a throw from binding escapes |
| MiddlewareProofs.OutsideBaseCallsNext | lib/Router.js:274-276 | with base path `/my-api`, `/foo?props=bar` is passed to `next` |
| MiddlewareProofs.UnmatchedIsNotFound | lib/Router.js:286-294 | a resource id no route matches is answered 404 with "No handlers" |
| MiddlewareProofs.UndeclaredPropertiesEscape | lib/Router.js:83 | a matched pattern with parameters whose schema has no `properties` makes the dispatch throw instead of answering |
| SchemaScopes.ReadKeys | lib/SchemaScopes.js:96-101 | a scope is inherited exactly when some annotation on the path declares it |
| SchemaScopes.ScopesPerProp | lib/SchemaScopes.js:96-128 | a leaf gives one entry under the given prefix, any other node a list; every entry carries at least the inherited and own scopes, and lies under the prefix |
| SchemaScopes.TransformSchema | lib/SchemaScopes.js:78-80 | a leaf root gives a single entry without a path; otherwise every entry carries the root's own scopes |
| ScopeIndexProofs.TransformSchemaMatchesLeaves | lib/SchemaScopes.js:96-128 | the index has one entry per leaf path, in depth-first order; its path joins keys with `.` after a key and `@` after an array, and its scopes are the union of all annotations from the root down to the leaf |
| ScopeIndexProofs.LeafPathsExactlyLeaves | lib/SchemaScopes.js:103-125 | the enumerated paths are exactly the paths that lead through objects and arrays to a leaf |
| ScopeIndexProofs.AncestorScopesInherited | lib/SchemaScopes.js:99-101 | every scope declared on a node is among the scopes of every leaf below it |
| ScopeIndexProofs.InheritanceOnlyAdds | lib/SchemaScopes.js:99-101 | going one step down adds exactly the child's own annotation to the inherited ones |
| ScopeIndexProofs.NoAnnotationsNoScopes | lib/SchemaScopes.js:96-128 | a schema with no scope annotations gives every field empty read and write sets |
| ScopeIndexProofs.ArrayPathExample | lib/SchemaScopes.js:110-125 | `someCollection.items[].details` is rendered `someCollection.items@details`, and an array step alone adds nothing |
| SchemaScopes.Field | lib/SchemaScopes.js:81-88 | the first entry with that path gives the field's scopes; no entry gives "<name> not found"; a leaf root fails with a TypeError |
| SchemaScopes.CanAccessResource | lib/SchemaScopes.js:7-17 | access is granted exactly when the root declares read scopes and one of the granted scopes is among them |
| SchemaScopes.SelectRequested | lib/SchemaScopes.js:30 | the requested names are kept when allowed, in request order and with their multiplicity |
| SchemaScopes.AllowedPaths | lib/SchemaScopes.js:20-24 | the allowed paths are the paths of exactly the entries that pass the read-scope test, one per entry, in index order |
| SchemaScopes.FilterProps | lib/SchemaScopes.js:19-31 | a field is allowed when it has no read scopes or when the number of granted scopes among them equals their number; without requested props the result is one path per allowed entry, in index order; with props requested, it is the requested names that are allowed, in request order and with their multiplicity |
| SchemaScopes.FilterPropsIntended | lib/SchemaScopes.js:19-31 | a field is allowed when every one of its read scopes is granted; without requested props the result is one path per allowed entry, in index order; with props requested, it is the requested names that are allowed, in request order and with their multiplicity |
| ScopeFilterProofs.CountMatchesContainment | lib/SchemaScopes.js:21-22 | without repeated grants, the count test and the containment test agree |
| ScopeFilterProofs.FilterPropsOnDistinctGrants | lib/SchemaScopes.js:19-31 | without repeated grants, `filterProps` as written gives exactly the intended result |
| ScopeFilterProofs.DuplicateGrantsMisjudge | lib/SchemaScopes.js:21-22 | a repeated grant lets the count test admit a field that lacks one of its scopes and refuse one whose scope is granted |

## Left out

- Unicode case mapping: `toLowerCase`/`toUpperCase` are modelled on ASCII letters only.
- JavaScript number rounding, negative zero and `parseInt` of numerals beyond 2^53: numbers are exact reals.
- `parseFloat` and jsen validation are parameters, because their behaviour lies outside the core.
- path-to-regexp is an abstract matcher (keys plus the set of accepted ids with their captures), because the regular-expression compiler is outside the core.
- Handler objects and schemas are key lists in JavaScript's property enumeration order: integer-like keys ascending, then the other keys in insertion order. The other fields of route and handler objects are not modelled.
- lodash `merge` of an object into an array keeps the source value in the model; lodash would merge keys into the array. No handler result of the core produces that pair.
- Merging.MergeAll returns `{}` for no results, as lodash 4 does; lodash 3 returns `undefined`. The lodash version is not part of this model, and the case is unreachable, because an empty selection is rejected first.
- Merging.MergeAll keeps a first result that is a primitive as it is; lodash 4 first wraps it with `Object(...)`. Primitive handler results are outside the model.
- Merging.MergeAll takes a later truthy array or string result in place of an object result; lodash copies its elements into the object under their index keys. Results that mix objects with arrays or strings are outside the model.
- Router.Project: when every requested prop of a result that is not an object is owned or reflected, the code deletes an array's unrequested indices, leaving holes, and sets the reflected parameters as properties of the array or of the `Object(...)` wrapper of a primitive; the model resolves with the merged value unchanged, because a JSON value has neither holes nor named properties on an array. Which props are missing, and the rejection, are modelled.
- Promise timing: when several handlers reject, the model reports the first in invocation order.
- A handler that throws synchronously is not modelled; handlers only fulfil or reject.
- Router.Handle reports the synchronous `TypeError` of binding as a distinct failure rather than an exception. `Middleware.Serve` turns it into an escaped error.
- Events are left out as I/O, except the `api:error` emit at lib/Router.js:210: it throws because `this` is unbound there, and `Router.Settle` models that throw (see Findings). The request body (`setResource`) and `respondJson`'s serialisation are left out as I/O.
- Router.Settle: handler results are JSON values, which carry no functions, so the duck-typed `toRepresentation` call at lib/Router.js:167-181 never happens; only the `TypeError` of reading it from a `null` array item is modelled (`NullItem`). An `undefined` item, which throws the same way, is not a JSON value.
- Middleware.Serve: `respondJson` answers 500 with "Unable to stringify to JSON" when `JSON.stringify` throws (lib/Router.js:240-245), as for a circular result. The model's values are finite trees, which always stringify, so it never gives that answer; only the status and outcome are kept.
- `lib/Request.js` URL and query parsing is not part of this model. Its results are inputs.
- `options('/')` for the whole API is not implemented by the router and is not modelled.
- The `FORBIDDEN` constant and `lib/Connection.js`, `lib/MonocleScopesMiddleware.js` are outside the core.

## Findings

| source | as written | input that shows it | evidently intended | confidence | as-written member | corrected member |
|---|---|---|---|---|---|---|
| lib/Router.js:210 | the `then` callback that merges and projects is not bound, and the module is not strict, so `this` there is the global object; with unresolved props `this._eventEmitter.emit` throws a `TypeError` and the dispatch rejects with it | GET `/foo` requesting `zzz` from a handler returning `{ bar: "x" }`, with no parameter `zzz` | reject with "Unable to resolve props zzz for resource /foo", the message line 216 builds | high, not executed | RouterProofs.UnresolvedPropExample | Router.SettleIntended |
| lib/SchemaScopes.js:21-22 | a field is readable when the number of granted scopes found in its read set equals the size of that set | granted `["read:a", "read:a"]` and a field requiring `{"read:a", "read:b"}` is admitted; with `{"read:a"}` alone it is refused | a field is readable when every scope in its read set is granted | medium, not executed | ScopeFilterProofs.DuplicateGrantsMisjudge | SchemaScopes.FilterPropsIntended |

`SchemaScopes.FilterProps` models the count test as written. `SchemaScopes.FilterPropsIntended` uses set containment. `ScopeFilterProofs.FilterPropsOnDistinctGrants` proves that the two agree whenever no scope is granted twice.

`Router.Settle` models the dispatch as written. `Router.Handle` and `Middleware.Serve` use it, because they report what a caller observes; the middleware answers 404 either way. `Router.SettleIntended` delivers the unresolved-props message. `RouterProofs.UnresolvedEmitThrows` proves that the two differ only there. `RouterProofs.SettleUncovered` and `RouterProofs.HandlePartialsUnresolved` state both outcomes.

=== FILE: json.dfy ===
/** The JavaScript values that flow through the router: handler results, bound path parameters. */
module Json {

  /** A JavaScript number. Finite numbers are exact reals: rounding to doubles is not modelled. */
  datatype JsNumber = NaN | Finite(r: real) | Infinite(positive: bool)

  /** A JSON-like value as a handler resolves it. Object key order is not modelled. */
  datatype Value =
    | Null
    | Bool(b: bool)
    | Num(n: JsNumber)
    | Str(s: string)
    | Arr(items: seq<Value>)
    | Obj(fields: map<string, Value>)

  /** A value bound to a path parameter by the router. */
  datatype Param = PNull | PStr(s: string) | PNum(n: JsNumber)

  /** JavaScript truthiness: `null`, `false`, `0`, `NaN` and `''` are falsy; arrays and objects are not. */
  predicate TruthyValue(v: Value) {
    match v
    case Null => false
    case Bool(b) => b
    case Num(n) => n.Infinite? || (n.Finite? && n.r != 0.0)
    case Str(s) => s != ""
    case _ => true
  }

  /** The truthiness of a bound parameter is that of the value it stands for. */
  predicate Truthy(p: Param) {
    TruthyValue(ParamValue(p))
  }

  /** The value a parameter becomes when it is written into a result object. */
  function ParamValue(p: Param): Value {
    match p
    case PNull => Null
    case PStr(s) => Str(s)
    case PNum(n) => Num(n)
  }
}

=== FILE: merge.dfy ===
/**
 * `_.merge(r1, r2, ...)` from lodash, which the dispatcher uses to combine the results of
 * the handlers it invoked for one request.
 */
module Merging {
  import opened Json

  function Max(a: nat, b: nat): nat {
    if a < b then b else a
  }

  /** Arrays and objects are merged into; every other value overwrites. */
  predicate IsContainer(v: Value) {
    v.Arr? || v.Obj?
  }

  /**
   * Deep-merge `s` into `d`: objects merge key by key, arrays index by index, and in every
   * other pairing the value from `s` wins.
   */
  function Merge(d: Value, s: Value): (r: Value)
    decreases s
    ensures d.Obj? && s.Obj? ==> r.Obj? && r.fields.Keys == d.fields.Keys + s.fields.Keys
    ensures d.Obj? && s.Obj? ==>
              (forall k :: k in d.fields && k !in s.fields ==> r.fields[k] == d.fields[k]) &&
              (forall k :: k in s.fields && k !in d.fields ==> r.fields[k] == s.fields[k]) &&
              (forall k :: k in s.fields && !IsContainer(s.fields[k]) ==> r.fields[k] == s.fields[k]) &&
              (forall k :: k in d.fields && k in s.fields ==> r.fields[k] == Merge(d.fields[k], s.fields[k]))
    ensures d.Arr? && s.Arr? ==> r.Arr? && |r.items| == Max(|d.items|, |s.items|)
    ensures d.Arr? && s.Arr? ==>
              (forall i :: |s.items| <= i < |d.items| ==> r.items[i] == d.items[i]) &&
              (forall i :: |d.items| <= i < |s.items| ==> r.items[i] == s.items[i]) &&
              (forall i :: 0 <= i < |s.items| && !IsContainer(s.items[i]) ==> r.items[i] == s.items[i]) &&
              (forall i :: 0 <= i < |d.items| && i < |s.items| ==> r.items[i] == Merge(d.items[i], s.items[i]))
    ensures !(d.Obj? && s.Obj?) && !(d.Arr? && s.Arr?) ==> r == s
  {
    match (d, s)
    case (Obj(df), Obj(sf)) =>
      Obj(map k | k in df.Keys + sf.Keys ::
            if k in df && k in sf then Merge(df[k], sf[k]) else if k in sf then sf[k] else df[k])
    case (Arr(da), Arr(sa)) =>
      Arr(seq(Max(|da|, |sa|), i requires 0 <= i < Max(|da|, |sa|) =>
            if i < |da| && i < |sa| then Merge(da[i], sa[i]) else if i < |sa| then sa[i] else da[i]))
    case _ => s
  }

  /**
   * `_.merge.apply(null, results)`: fold every later result into the first, left to right;
   * lodash passes over a falsy source without touching the destination.
   */
  function MergeAll(results: seq<Value>): (r: Value)
    ensures results == [] ==> r == Obj(map[])
    ensures |results| == 1 ==> r == results[0]
  {
    if results == [] then Obj(map[])
    else if |results| == 1 then results[0]
    else
      var acc := MergeAll(results[..|results| - 1]);
      var last := results[|results| - 1];
      if TruthyValue(last) then Merge(acc, last) else acc
  }

  /** A falsy result after the first leaves the merged value as it was. */
  lemma {:induction false} FalsyResultsSkipped(results: seq<Value>, v: Value)
    requires results != [] && !TruthyValue(v)
    ensures MergeAll(results + [v]) == MergeAll(results)
  {
    assert (results + [v])[..|results|] == results;
  }

  predicate AllObjects(vs: seq<Value>) {
    forall i :: 0 <= i < |vs| ==> vs[i].Obj?
  }

  /** Some object among `vs` has the key `k`. */
  predicate InSome(k: string, vs: seq<Value>) {
    exists i :: 0 <= i < |vs| && vs[i].Obj? && k in vs[i].fields
  }

  lemma {:induction false} InSomeSplit(k: string, vs: seq<Value>)
    requires |vs| > 1 && vs[|vs| - 1].Obj?
    ensures InSome(k, vs) <==> InSome(k, vs[..|vs| - 1]) || k in vs[|vs| - 1].fields
  {
    var init := vs[..|vs| - 1];
    if InSome(k, vs) && k !in vs[|vs| - 1].fields {
      var i :| 0 <= i < |vs| && vs[i].Obj? && k in vs[i].fields;
      assert init[i] == vs[i];
    }
    if InSome(k, init) {
      var i :| 0 <= i < |init| && init[i].Obj? && k in init[i].fields;
      assert vs[i] == init[i];
    }
    if k in vs[|vs| - 1].fields {
      assert vs[|vs| - 1].Obj?;
    }
  }

  /** Merging object results keeps every key any of them has, and no other. */
  lemma {:induction false} MergeAllKeys(results: seq<Value>)
    requires AllObjects(results) && results != []
    ensures MergeAll(results).Obj?
    ensures forall k :: k in MergeAll(results).fields <==> InSome(k, results)
  {
    if |results| == 1 {
      assert forall k :: InSome(k, results) ==> k in results[0].fields;
      assert forall k :: k in results[0].fields ==> InSome(k, results);
    } else {
      var init := results[..|results| - 1];
      var last := results[|results| - 1];
      assert AllObjects(init) by {
        forall i | 0 <= i < |init| ensures init[i].Obj? { assert init[i] == results[i]; }
      }
      MergeAllKeys(init);
      assert last.Obj?;
      var r := MergeAll(results);
      assert r == Merge(MergeAll(init), last);
      forall k ensures k in r.fields <==> InSome(k, results) {
        InSomeSplit(k, results);
      }
    }
  }

  /** Merging a value into itself changes nothing. */
  lemma {:induction false} MergeIdempotent(v: Value)
    ensures Merge(v, v) == v
  {
    match v
    case Obj(f) =>
      forall k | k in f ensures Merge(f[k], f[k]) == f[k] {
        MergeIdempotent(f[k]);
      }
      assert Merge(v, v).fields == f;
    case Arr(a) =>
      forall i | 0 <= i < |a| ensures Merge(a[i], a[i]) == a[i] {
        MergeIdempotent(a[i]);
      }
      assert Merge(v, v).items == a;
    case _ =>
  }

  /** Objects with no key in common merge into their union. */
  lemma {:induction false} DisjointObjectsUnion(a: map<string, Value>, b: map<string, Value>)
    requires a.Keys !! b.Keys
    ensures Merge(Obj(a), Obj(b)) == Obj(a + b)
  {
    var r := Merge(Obj(a), Obj(b));
    assert r.fields == a + b;
  }

  /**
   * Two equally long collections whose matching elements describe disjoint fields of the
   * same resources merge element by element into the complete resources.
   */
  lemma {:induction false} CollectionsMergePerElement(xs: seq<map<string, Value>>, ys: seq<map<string, Value>>)
    requires |xs| == |ys|
    requires forall i :: 0 <= i < |xs| ==> xs[i].Keys !! ys[i].Keys
    ensures Merge(Arr(seq(|xs|, i requires 0 <= i < |xs| => Obj(xs[i]))),
                  Arr(seq(|ys|, i requires 0 <= i < |ys| => Obj(ys[i]))))
         == Arr(seq(|xs|, i requires 0 <= i < |xs| => Obj(xs[i] + ys[i])))
  {
    var d := seq(|xs|, i requires 0 <= i < |xs| => Obj(xs[i]));
    var s := seq(|ys|, i requires 0 <= i < |ys| => Obj(ys[i]));
    var r := Merge(Arr(d), Arr(s));
    forall i | 0 <= i < |xs| ensures r.items[i] == Obj(xs[i] + ys[i]) {
      DisjointObjectsUnion(xs[i], ys[i]);
    }
  }

  /** Two results merge as the second merged into the first, unless the second is falsy. */
  lemma {:induction false} MergeAllPair(a: Value, b: Value)
    ensures MergeAll([a, b]) == if TruthyValue(b) then Merge(a, b) else a
  {
    assert [a, b][..1] == [a];
  }

  /**
   * Two partial handlers of a collection, one producing `bar` and one `baz` for the same
   * three resources, merge into three resources carrying both fields.
   */
  lemma {:induction false} PartialCollectionsExample()
    ensures var bars := [Obj(map["bar" := Str("bar 1")]), Obj(map["bar" := Str("bar 2")]), Obj(map["bar" := Str("bar 3")])];
            var bazs := [Obj(map["baz" := Str("baz 1")]), Obj(map["baz" := Str("baz 2")]), Obj(map["baz" := Str("baz 3")])];
            MergeAll([Arr(bars), Arr(bazs)])
              == Arr([Obj(map["bar" := Str("bar 1"), "baz" := Str("baz 1")]),
                      Obj(map["bar" := Str("bar 2"), "baz" := Str("baz 2")]),
                      Obj(map["bar" := Str("bar 3"), "baz" := Str("baz 3")])])
  {
    var xs := [map["bar" := Str("bar 1")], map["bar" := Str("bar 2")], map["bar" := Str("bar 3")]];
    var ys := [map["baz" := Str("baz 1")], map["baz" := Str("baz 2")], map["baz" := Str("baz 3")]];
    var bars := seq(|xs|, i requires 0 <= i < |xs| => Obj(xs[i]));
    var bazs := seq(|ys|, i requires 0 <= i < |ys| => Obj(ys[i]));
    var full := seq(|xs|, i requires 0 <= i < |xs| => Obj(xs[i] + ys[i]));
    CollectionsMergePerElement(xs, ys);
    assert MergeAll([Arr(bars), Arr(bazs)]) == Merge(Arr(bars), Arr(bazs)) by {
      MergeAllPair(Arr(bars), Arr(bazs));
    }
    assert bars == [Obj(xs[0]), Obj(xs[1]), Obj(xs[2])];
    assert bazs == [Obj(ys[0]), Obj(ys[1]), Obj(ys[2])];
    assert full == [Obj(xs[0] + ys[0]), Obj(xs[1] + ys[1]), Obj(xs[2] + ys[2])];
    assert xs[0] + ys[0] == map["bar" := Str("bar 1"), "baz" := Str("baz 1")];
    assert xs[1] + ys[1] == map["bar" := Str("bar 2"), "baz" := Str("baz 2")];
    assert xs[2] + ys[2] == map["bar" := Str("bar 3"), "baz" := Str("baz 3")];
  }
}

=== FILE: middleware.dfy ===
/**
 * `Router.prototype.middleware(options)`: the connect-style function that gates requests on
 * a base path, derives the resource id and method, and turns the dispatch outcome into a
 * status code.
 */
module Middleware {
  import opened Wrappers
  import opened Json
  import opened Schemas
  import opened Strings
  import opened Router

  /** `basePath` when the options leave it out. */
  const DefaultBasePath: string := "/"

  /** The parts of the incoming HTTP request the middleware reads. */
  datatype HttpRequest = HttpRequest(verb: string, url: string)

  /**
   * What the request object parses out of the URL: the `_method` query value and the
   * requested props it exposes, and the parameters it starts with.
   */
  datatype ParsedUrl = ParsedUrl(methodOverride: Option<string>, props: seq<string>, params: map<string, Param>)

  /** `next()` for requests outside the base path, otherwise the request to dispatch. */
  datatype Step = Next | Dispatch(request: Request)

  /**
   * What the middleware does with the response: pass it on, answer it, or let an error
   * thrown synchronously by `handle` escape to the caller before any promise exists.
   */
  datatype Reply = CallNext | Respond(status: nat, outcome: Outcome) | Escape(error: Failure)

  /** `basePath.replace(/\/$/, '')`: drop one trailing slash. */
  function StripTrailingSlash(b: string): (r: string)
    ensures r <= b && |b| - 1 <= |r|
    ensures |r| < |b| <==> (|b| > 0 && b[|b| - 1] == '/')
  {
    if |b| > 0 && b[|b| - 1] == '/' then b[..|b| - 1] else b
  }

  /** How many leading characters of the URL the middleware cuts off. */
  function BasePathLength(b: string): nat {
    |StripTrailingSlash(b)|
  }

  /** `s.substr(start)` for a non-negative start: empty once past the end. */
  function Substr(s: string, start: nat): (r: string)
    ensures start <= |s| ==> s == s[..start] + r
    ensures start >= |s| ==> r == []
  {
    if start >= |s| then [] else s[start..]
  }

  /** The characters `.` does not match in a JavaScript regular expression. */
  predicate IsLineTerminator(c: char) {
    c == '\n' || c == '\r' || c as int == 0x2028 || c as int == 0x2029
  }

  predicate SingleLine(s: string) {
    forall i :: 0 <= i < |s| ==> !IsLineTerminator(s[i])
  }

  /** The index of the first `?` in `s`. */
  function QueryStart(s: string): (r: Option<nat>)
    ensures r.None? <==> '?' !in s
    ensures r.Some? ==> r.value < |s| && s[r.value] == '?' && '?' !in s[..r.value]
  {
    if s == [] then None
    else if s[0] == '?' then Some(0)
    else
      var rest := QueryStart(s[1..]);
      if rest.None? then None
      else
        assert s[..rest.value + 1] == [s[0]] + s[1..][..rest.value];
        Some(rest.value + 1)
  }

  /** The first line terminator at or after `from`, or the end of `s`. */
  function LineEnd(s: string, from: nat): (e: nat)
    requires from <= |s|
    decreases |s| - from
    ensures from <= e <= |s|
    ensures forall k :: from <= k < e ==> !IsLineTerminator(s[k])
    ensures e < |s| ==> IsLineTerminator(s[e])
  {
    if from == |s| || IsLineTerminator(s[from]) then from else LineEnd(s, from + 1)
  }

  // `s.replace(/\?.*/, '')`: cut from the first `?` up to, not including, the next line
  // terminator.
  function StripQuery(s: string): (r: string)
    ensures '?' !in s ==> r == s
    ensures SingleLine(s) ==> r <= s && '?' !in r && (|r| < |s| ==> s[|r|] == '?')
    ensures |r| <= |s|
  {
    match QueryStart(s)
    case None => s
    case Some(q) =>
      var e := LineEnd(s, q);
      assert SingleLine(s) ==> e == |s|;
      assert s[..q] + s[|s|..] == s[..q];
      s[..q] + s[e..]
  }

  /** The resource id: the URL without the base path (its trailing slash kept) and the query. */
  function ResourceId(basePath: string, url: string): string {
    StripQuery(Substr(url, BasePathLength(basePath)))
  }

  /** `parsedUrl.query._method || req.method`: a non-empty override wins. */
  function MethodOf(http: HttpRequest, parsed: ParsedUrl): (m: string)
    ensures parsed.methodOverride.Some? && parsed.methodOverride.value != "" ==> m == parsed.methodOverride.value
    ensures parsed.methodOverride.None? || parsed.methodOverride.value == "" ==> m == http.verb
  {
    if parsed.methodOverride.Some? && parsed.methodOverride.value != "" then parsed.methodOverride.value
    else http.verb
  }

  /**
   * The gate: a request outside a non-empty base path is passed on; any other becomes a
   * router request. An empty base path admits everything.
   */
  function Gate(basePath: string, http: HttpRequest, parsed: ParsedUrl): (r: Step)
    ensures r.Next? <==> basePath != "" && !IsPrefix(basePath, http.url)
    ensures r.Dispatch? ==> r.request.resourceId == ResourceId(basePath, http.url)
    ensures r.Dispatch? ==> r.request.verb == MethodOf(http, parsed)
    ensures r.Dispatch? ==> r.request.props == parsed.props && r.request.params == parsed.params
  {
    if basePath != "" && !IsPrefix(basePath, http.url) then Next
    else Dispatch(Request(ResourceId(basePath, http.url), MethodOf(http, parsed), parsed.params, parsed.props))
  }

  /**
   * The whole middleware: gate, dispatch, and answer 200 on success and 404 on a rejected
   * dispatch. A schema without `properties` makes `handle` throw before it returns a
   * promise, so that error leaves the middleware instead of becoming a 404.
   */
  function Serve(routes: seq<Route>, basePath: string, http: HttpRequest, parsed: ParsedUrl,
                 run: (Callback, Request) -> Settled, parseFloat: string -> JsNumber,
                 valid: (Schema, Value) -> bool): (r: Reply)
    ensures r.CallNext? <==> Gate(basePath, http, parsed).Next?
    ensures r.Respond? ==> (r.status == 404 <==> r.outcome.Failed?)
    ensures r.Respond? ==> (r.status == 200 <==> !r.outcome.Failed?)
    ensures r.Respond? ==> r.outcome == Handle(routes, Gate(basePath, http, parsed).request, run, parseFloat, valid).outcome
    ensures r.Escape? <==> (Gate(basePath, http, parsed).Dispatch? &&
      Handle(routes, Gate(basePath, http, parsed).request, run, parseFloat, valid).outcome == Failed(PropertiesUndefined))
    ensures r.Respond? ==> r.outcome != Failed(PropertiesUndefined)
  {
    match Gate(basePath, http, parsed)
    case Next => CallNext
    case Dispatch(request) =>
      var outcome := Handle(routes, request, run, parseFloat, valid).outcome;
      if outcome == Failed(PropertiesUndefined) then Escape(PropertiesUndefined)
      else Respond(if outcome.Failed? then 404 else 200, outcome)
  }
}

=== FILE: middleware_proofs.dfy ===
/** What the middleware cuts from a URL, and its documented behaviour on example requests. */
module MiddlewareProofs {
  import opened Wrappers
  import opened Json
  import opened Schemas
  import opened Strings
  import opened Router
  import opened Middleware

  /**
   * Under the base path, exactly the base path minus its trailing slash is cut, so the
   * resource id keeps its leading slash; the query is then removed.
   */
  lemma {:induction false} ResourceIdAfterBase(basePath: string, url: string)
    requires IsPrefix(basePath, url)
    ensures url[..BasePathLength(basePath)] == StripTrailingSlash(basePath)
    ensures ResourceId(basePath, url) == StripQuery(url[BasePathLength(basePath)..])
  {
    var n := BasePathLength(basePath);
    assert url[..n] == basePath[..n];
  }

  /** On a single-line URL the resource id is the part after the base and before the first `?`. */
  lemma {:induction false} ResourceIdIsPath(basePath: string, path: string, query: string)
    requires SingleLine(path) && SingleLine(query) && '?' !in path
    ensures ResourceId(basePath, StripTrailingSlash(basePath) + path + "?" + query) == path
  {
    var url := StripTrailingSlash(basePath) + path + "?" + query;
    var n := BasePathLength(basePath);
    var rest := Substr(url, n);
    assert rest == path + "?" + query by {
      assert url[..n] == StripTrailingSlash(basePath);
    }
    assert SingleLine(rest) by {
      forall i | 0 <= i < |rest| ensures !IsLineTerminator(rest[i]) {
        if i < |path| { assert rest[i] == path[i]; }
        else if i > |path| { assert rest[i] == query[i - |path| - 1]; }
      }
    }
    var r := StripQuery(rest);
    assert r == path by {
      assert rest[..|path|] == path && rest[|path|] == '?';
    }
  }

  /** `.` stops at a line break, so the text after one survives the query removal. */
  lemma {:induction false} QueryStopsAtLineBreak()
    ensures StripQuery("/a?x\ny") == "/a\ny"
  {
    var s := "/a?x\ny";
    assert s[0] != '?' && s[1] != '?' && s[2] == '?';
    assert s[1..][1..] == "?x\ny" && s[1..] == "a?x\ny";
    assert QueryStart(s) == Some(2);
    assert !IsLineTerminator(s[2]) && !IsLineTerminator(s[3]) && IsLineTerminator(s[4]);
    assert LineEnd(s, 4) == 4;
    assert LineEnd(s, 2) == 4;
    assert s[..2] + s[4..] == "/a\ny";
  }

  /**
   * With the default base path nothing is cut but the query, and every URL that starts with
   * `/` is admitted; one that does not, such as `*`, is passed to `next`.
   */
  lemma {:induction false} DefaultBaseKeepsPath(http: HttpRequest, parsed: ParsedUrl)
    requires IsPrefix("/", http.url)
    ensures Gate(DefaultBasePath, http, parsed).Dispatch?
    ensures Gate(DefaultBasePath, http, parsed).request.resourceId == StripQuery(http.url)
  {
    assert BasePathLength(DefaultBasePath) == 0;
    assert Substr(http.url, 0) == http.url;
  }

  /** A request outside a configured base path is passed to `next`. */
  lemma {:induction false} OutsideBaseCallsNext(routes: seq<Route>, run: (Callback, Request) -> Settled,
                             parseFloat: string -> JsNumber, valid: (Schema, Value) -> bool)
    ensures Serve(routes, "/my-api", HttpRequest("GET", "/foo?props=bar"), ParsedUrl(None, ["bar"], map[]),
                  run, parseFloat, valid) == CallNext
  {
    assert !IsPrefix("/my-api", "/foo?props=bar") by {
      assert "/foo?props=bar"[..7][1] == 'f';
    }
  }

  /** A resource id no route matches is answered with 404 and nothing is called. */
  lemma {:induction false} UnmatchedIsNotFound(routes: seq<Route>, basePath: string, http: HttpRequest, parsed: ParsedUrl,
                            run: (Callback, Request) -> Settled, parseFloat: string -> JsNumber,
                            valid: (Schema, Value) -> bool)
    requires basePath == "" || IsPrefix(basePath, http.url)
    requires forall j :: 0 <= j < |routes| ==> !Matches(routes[j], ResourceId(basePath, http.url))
    ensures Serve(routes, basePath, http, parsed, run, parseFloat, valid) == Respond(404, Failed(NoHandlers))
  {
  }

  /**
   * A matched pattern with parameters whose schema declares no `properties` makes the
   * dispatch throw: the middleware neither answers nor calls `next`.
   */
  lemma {:induction false} UndeclaredPropertiesEscape(routes: seq<Route>, basePath: string, http: HttpRequest,
                            parsed: ParsedUrl, run: (Callback, Request) -> Settled,
                            parseFloat: string -> JsNumber, valid: (Schema, Value) -> bool, i: nat)
    requires basePath == "" || IsPrefix(basePath, http.url)
    requires FirstMatch(routes, ResourceId(basePath, http.url)) == Some(i)
    requires |routes[i].compiled.keys| > 0 && routes[i].schema.properties.NoProperties?
    ensures Serve(routes, basePath, http, parsed, run, parseFloat, valid) == Escape(PropertiesUndefined)
  {
  }

  /** `?_method=patch` turns a POST into a PATCH as far as the router is concerned. */
  lemma {:induction false} MethodOverride()
    ensures MethodOf(HttpRequest("POST", "/foo?_method=patch"), ParsedUrl(Some("patch"), [], map[])) == "patch"
    ensures MethodOf(HttpRequest("POST", "/foo?_method="), ParsedUrl(Some(""), [], map[])) == "POST"
  {
  }
}

=== FILE: parse_int.dfy ===
/**
 * `parseInt(x)` with no radix, as section 18.2.5 of ECMAScript 2015 (ECMA-262) defines it:
 * the router applies it to path parameters whose schema type is `integer`.
 */
module JsParseInt {
  import opened Wrappers
  import opened Json

  /** WhiteSpace and LineTerminator code points, which `parseInt` skips at the start. */
  predicate IsStrWhiteSpace(c: char) {
    var n := c as int;
    n == 0x09 || n == 0x0A || n == 0x0B || n == 0x0C || n == 0x0D || n == 0x20 || n == 0xA0
    || n == 0x1680 || (0x2000 <= n <= 0x200A) || n == 0x2028 || n == 0x2029 || n == 0x202F
    || n == 0x205F || n == 0x3000 || n == 0xFEFF
  }

  /** `s` with its leading white space removed. */
  function TrimStart(s: string): (r: string)
    ensures |r| <= |s| && r == s[|s| - |r|..]
    ensures forall i :: 0 <= i < |s| - |r| ==> IsStrWhiteSpace(s[i])
    ensures r != [] ==> !IsStrWhiteSpace(r[0])
  {
    if s != [] && IsStrWhiteSpace(s[0]) then TrimStart(s[1..]) else s
  }

  /** The value of `c` as a digit in `radix` (10 or 16), if it is one. */
  function DigitValue(c: char, radix: nat): (r: int)
    ensures -1 <= r < (if radix == 16 then 16 else 10)
  {
    if '0' <= c <= '9' then c as int - '0' as int
    else if radix == 16 && 'a' <= c <= 'f' then c as int - 'a' as int + 10
    else if radix == 16 && 'A' <= c <= 'F' then c as int - 'A' as int + 10
    else -1
  }

  predicate IsDigit(c: char, radix: nat) {
    DigitValue(c, radix) >= 0
  }

  /** The longest prefix of `s` made of digits of `radix`. */
  function DigitRun(s: string, radix: nat): (r: string)
    ensures r <= s
    ensures forall i :: 0 <= i < |r| ==> IsDigit(r[i], radix)
    ensures |r| < |s| ==> !IsDigit(s[|r|], radix)
  {
    if s == [] || !IsDigit(s[0], radix) then [] else [s[0]] + DigitRun(s[1..], radix)
  }

  /** The integer the digits `z` denote in `radix`. */
  function DigitsValue(z: string, radix: nat): (r: nat)
    requires forall i :: 0 <= i < |z| ==> IsDigit(z[i], radix)
  {
    if z == [] then 0
    else
      assert IsDigit(z[|z| - 1], radix);
      DigitsValue(z[..|z| - 1], radix) * radix + DigitValue(z[|z| - 1], radix)
  }

  /** The sign character `parseInt` reads, if any, after the white space. */
  function SignOf(t: string): (negative: bool) {
    |t| > 0 && t[0] == '-'
  }

  function Unsigned(t: string): string {
    if |t| > 0 && (t[0] == '-' || t[0] == '+') then t[1..] else t
  }

  predicate HasHexPrefix(u: string) {
    |u| >= 2 && u[0] == '0' && (u[1] == 'x' || u[1] == 'X')
  }

  /**
   * `parseInt(s)`: skip white space, read an optional sign, switch to radix 16 after `0x` or
   * `0X`, and read the longest run of digits; no digits gives `NaN`. Negative zero is not
   * distinguished from zero.
   */
  function ParseInt(s: string): (r: JsNumber)
    ensures r.NaN? || r.Finite?
    ensures r.NaN? <==> !StartsWithDigits(Unsigned(TrimStart(s)))
    ensures r.Finite? ==> r.r.Floor as real == r.r
    ensures r.Finite? && r.r < 0.0 ==> SignOf(TrimStart(s))
  {
    var t := TrimStart(s);
    match Magnitude(Unsigned(t))
    case None => NaN
    case Some(m) =>
      var q: int := if SignOf(t) then -(m as int) else m;
      Finite(q as real)
  }

  /** The unsigned digits that follow the sign, in the radix their prefix selects. */
  function Magnitude(u: string): (r: Option<nat>)
    ensures r.None? <==> !StartsWithDigits(u)
  {
    var radix: nat := if HasHexPrefix(u) then 16 else 10;
    var v := if HasHexPrefix(u) then u[2..] else u;
    var z := DigitRun(v, radix);
    if z == [] then None else Some(DigitsValue(z, radix))
  }

  /** After the sign, a digit of the radix in force follows (past `0x` in hexadecimal). */
  predicate StartsWithDigits(u: string) {
    if HasHexPrefix(u) then |u| > 2 && IsDigit(u[2], 16) else u != [] && IsDigit(u[0], 10)
  }

  /** The decimal digit for `d`. */
  function DigitChar(d: nat): (c: char)
    requires d < 10
    ensures IsDigit(c, 10) && DigitValue(c, 10) == d
  {
    ('0' as int + d) as char
  }

  /** The decimal numeral of `n`, without leading zeros. */
  function Numeral(n: nat): (r: string)
    ensures r != [] && forall i :: 0 <= i < |r| ==> IsDigit(r[i], 10)
    ensures |r| > 1 ==> r[0] != '0'
  {
    if n < 10 then [DigitChar(n)] else Numeral(n / 10) + [DigitChar(n % 10)]
  }

  /** `String(n)` for an integer `n`. */
  function DecimalString(n: int): string {
    if n < 0 then "-" + Numeral(-n) else Numeral(n)
  }

  lemma {:induction false} NumeralValue(n: nat)
    ensures DigitsValue(Numeral(n), 10) == n
  {
    if n >= 10 {
      NumeralValue(n / 10);
      var z := Numeral(n);
      assert z[..|z| - 1] == Numeral(n / 10);
    }
  }

  lemma {:induction false} DigitRunStops(z: string, tail: string, radix: nat)
    requires forall i :: 0 <= i < |z| ==> IsDigit(z[i], radix)
    requires tail == [] || !IsDigit(tail[0], radix)
    ensures DigitRun(z + tail, radix) == z
  {
    if z != [] {
      assert (z + tail)[1..] == z[1..] + tail;
      DigitRunStops(z[1..], tail, radix);
    } else {
      assert z + tail == tail;
    }
  }

  /**
   * A decimal numeral followed by anything that does not continue it parses back to its
   * value: `parseInt('123abc')` is 123. The one trap is a zero followed by `x`, which reads
   * as a hexadecimal prefix.
   */
  lemma {:induction false} ParseIntReadsNumeral(n: int, tail: string)
    requires tail == [] || !IsDigit(tail[0], 10)
    requires n != 0 || tail == [] || (tail[0] != 'x' && tail[0] != 'X')
    ensures ParseInt(DecimalString(n) + tail) == Finite(n as real)
  {
    var m: nat := if n < 0 then -n else n;
    var s := DecimalString(n) + tail;
    SignedNumeral(n, tail);
    MagnitudeOfNumeral(m, tail);
    ParseIntOfTrimmed(s, m);
    assert (if SignOf(s) then -(m as int) else m) == n;
  }

  /** How `String(n) + tail` splits into a sign and the numeral of `|n|`. */
  lemma {:induction false} SignedNumeral(n: int, tail: string)
    ensures var s := DecimalString(n) + tail;
            && TrimStart(s) == s
            && SignOf(s) == (n < 0)
            && Unsigned(s) == Numeral(if n < 0 then -n else n) + tail
  {
    var z := Numeral(if n < 0 then -n else n);
    var s := DecimalString(n) + tail;
    if n < 0 {
      assert s == "-" + (z + tail);
      assert s[1..] == z + tail;
    } else {
      assert s == z + tail && IsDigit(s[0], 10);
    }
    NoLeadingSpace(s);
  }

  /** The digits of a numeral, followed by something that is not a digit, read back as `m`. */
  lemma {:induction false} MagnitudeOfNumeral(m: nat, tail: string)
    requires tail == [] || !IsDigit(tail[0], 10)
    requires m != 0 || tail == [] || (tail[0] != 'x' && tail[0] != 'X')
    ensures Magnitude(Numeral(m) + tail) == Some(m)
  {
    var z := Numeral(m);
    var u := z + tail;
    assert !HasHexPrefix(u) by {
      if |u| >= 2 && u[0] == '0' {
        assert |z| == 1 && m == 0;
        assert u[1] == tail[0];
      }
    }
    DigitRunStops(z, tail, 10);
    NumeralValue(m);
  }

  lemma {:induction false} ParseIntOfTrimmed(s: string, m: nat)
    requires TrimStart(s) == s && Magnitude(Unsigned(s)) == Some(m)
    ensures ParseInt(s) == Finite((if SignOf(s) then -(m as int) else m) as real)
  {
  }

  lemma {:induction false} NoLeadingSpace(s: string)
    requires s != [] && (IsDigit(s[0], 10) || s[0] == '-')
    ensures TrimStart(s) == s
  {
    assert !IsStrWhiteSpace(s[0]);
  }

  /** `parseInt(String(n)) === n` for every integer `n`. */
  lemma {:induction false} ParseIntRoundTrip(n: int)
    ensures ParseInt(DecimalString(n)) == Finite(n as real)
  {
    ParseIntReadsNumeral(n, []);
    assert DecimalString(n) + [] == DecimalString(n);
  }

  /** `parseInt` only looks past the leading white space. */
  lemma {:induction false} ParseIntSkipsSpace(s: string)
    ensures ParseInt(s) == ParseInt(TrimStart(s))
  {
    TrimStartIdempotent(s);
  }

  lemma {:induction false} TrimStartIdempotent(s: string)
    ensures TrimStart(TrimStart(s)) == TrimStart(s)
  {
    if s != [] && IsStrWhiteSpace(s[0]) {
      TrimStartIdempotent(s[1..]);
    }
  }

  /** A missing path capture becomes `null`, then the string `"null"`, which parses to `NaN`. */
  lemma {:induction false} ParseIntOfNull()
    ensures ParseInt("null") == NaN
  {
    NoSpaceStart("null");
    assert Unsigned("null") == "null";
  }

  /** No digits at all, or a hexadecimal prefix with no digits after it, is `NaN`. */
  lemma {:induction false} ParseIntWithoutDigits()
    ensures ParseInt("") == NaN
    ensures ParseInt("0x") == NaN
  {
    NoSpaceStart("0x");
    assert Unsigned("0x") == "0x" && HasHexPrefix("0x");
    assert "0x"[2..] == [];
  }

  lemma {:induction false} NoSpaceStart(s: string)
    requires s != [] && !IsStrWhiteSpace(s[0])
    ensures TrimStart(s) == s
  {
  }

  lemma {:induction false} SkipOneSpace(s: string)
    requires s != [] && s[0] == ' '
    ensures TrimStart(s) == TrimStart(s[1..])
  {
  }

  /** Leading blanks are skipped and the sign is read: `parseInt('  -7')` is -7. */
  lemma {:induction false} SpacedNegative()
    ensures ParseInt("  -7") == Finite(-7.0)
  {
    var t := "  -7";
    assert TrimStart(t) == "-7" by {
      NoSpaceStart("-7");
      SkipOneSpace(" -7");
      SkipOneSpace(t);
      assert t[1..] == " -7" && t[1..][1..] == "-7";
    }
    assert Unsigned("-7") == "7" && SignOf("-7");
    assert Magnitude("7") == Some(7) by {
      assert Numeral(7) == "7";
      MagnitudeOfNumeral(7, []);
      assert Numeral(7) + [] == "7";
    }
  }

  /** `0x` switches to base 16: `parseInt('0x1F')` is 31. */
  lemma {:induction false} HexExample()
    ensures ParseInt("0x1F") == Finite(31.0)
  {
    var h := "0x1F";
    NoSpaceStart(h);
    assert Unsigned(h) == h;
    assert h[2..] == "1F";
    assert DigitRun("1F", 16) == "1F" by { assert "1F"[1..] == "F" && "F"[1..] == []; }
    assert DigitsValue("1F", 16) == 31 by { assert "1F"[..1] == "1" && "1"[..0] == []; }
    assert Magnitude(h) == Some(31);
    ParseIntOfTrimmed(h, 31);
  }
}

=== FILE: router.dfy ===
/**
 * The route table and the dispatcher: `Router.prototype.route` registers a schema and its
 * handlers under a path pattern, and `Router.prototype.handle` resolves a request against
 * the first matching route.
 */
module Router {
  import opened Wrappers
  import opened Json
  import opened Schemas
  import opened Strings
  import opened Sequences
  import opened JsParseInt
  import opened Merging

  /** A handler function, by identity; what it resolves to is a parameter of dispatch. */
  type Callback = nat

  /** `{ props: [...], callback: fn }`: a handler that produces only some fields. */
  datatype PartialHandler = PartialHandler(props: seq<string>, callback: Callback)

  /** The value registered under a method key: a function, an array of partials, or neither. */
  datatype Handler = Whole(callback: Callback) | Partials(entries: seq<PartialHandler>) | Neither

  /** The capture groups of a match, `match[1..]`; a group that did not take part is `None`. */
  type Captures = seq<Option<string>>

  /**
   * What `pathToRegexp(pattern, keys)` produces: the parameter names and the matcher, given
   * as the (possibly infinite) map from each resource id the expression accepts to its captures.
   */
  datatype Compiled = Compiled(keys: seq<string>, matcher: imap<string, Captures>)

  /**
   * A registered route. `handlers` lists the method keys in enumeration order; they come
   * from an object, so in every reachable route no key occurs twice.
   */
  datatype Route = Route(pattern: string, schema: Schema, handlers: seq<(string, Handler)>, compiled: Compiled)

  /** What the router reads from a request and what it writes back into it. */
  datatype Request = Request(resourceId: string, verb: string, params: map<string, Param>, props: seq<string>)

  /** How a handler's returned value or promise settles. */
  datatype Settled = Fulfilled(value: Value) | Rejected(reason: Value)

  datatype Failure =
    | NoHandlers                    // rejects with 'No handlers'
    | NoHandlerFor(message: string) // rejects with { error: message }
    | PropertiesUndefined           // TypeError thrown while binding parameters
    | HandlerRejected(reason: Value)
    | UnresolvedProps(message: string) // rejects with 'Unable to resolve props ...'
    | EmitterUnbound                // TypeError: `this._eventEmitter` read through an unbound `this`
    | NullItem                      // TypeError: `toRepresentation` read from a `null` array item
    | DidNotValidate(data: Value)   // message 'Return value did not validate with schema'

  /** `{ schema, methods }` for OPTIONS, the final result, or a failure. */
  datatype Outcome = Described(schema: Schema, methods: seq<string>) | Done(value: Value) | Failed(failure: Failure)

  /** The outcome of one `handle` call together with the handlers it called, in order. */
  datatype Response = Response(invoked: seq<Callback>, outcome: Outcome)

  // ---------------------------------------------------------------- registration

  /**
   * `route(pattern, schema, handlers)`: reject a schema that fails structural validation,
   * otherwise append the route, so earlier routes keep their priority.
   */
  function Register(routes: seq<Route>, pattern: string, schema: Schema, handlers: seq<(string, Handler)>,
                    schemaValid: Schema -> bool, compile: string -> Compiled): (r: Result<seq<Route>, string>)
    ensures r.Failure? <==> !schemaValid(schema)
    ensures r.Failure? ==> r.error == "Invalid schema"
    ensures r.Success? ==> |r.value| == |routes| + 1 && r.value[..|routes|] == routes
    ensures r.Success? ==> var added := r.value[|routes|];
              added.pattern == pattern && added.schema == schema && added.handlers == handlers
              && added.compiled == compile(pattern)
  {
    if !schemaValid(schema) then Failure("Invalid schema")
    else Success(routes + [Route(pattern, schema, handlers, compile(pattern))])
  }

  // ---------------------------------------------------------------- matching

  predicate Matches(route: Route, resourceId: string) {
    resourceId in route.compiled.matcher
  }

  /** The index of the first route whose pattern matches `resourceId`. */
  function FirstMatch(routes: seq<Route>, resourceId: string): (r: Option<nat>)
    ensures r.Some? ==> r.value < |routes| && Matches(routes[r.value], resourceId)
    ensures r.Some? ==> forall j :: 0 <= j < r.value ==> !Matches(routes[j], resourceId)
    ensures r.None? <==> forall j :: 0 <= j < |routes| ==> !Matches(routes[j], resourceId)
  {
    if routes == [] then None
    else if Matches(routes[0], resourceId) then Some(0)
    else
      var rest := FirstMatch(routes[1..], resourceId);
      assert forall j :: 1 <= j < |routes| ==> routes[j] == routes[1..][j - 1];
      if rest.None? then None else Some(rest.value + 1)
  }

  // ---------------------------------------------------------------- parameter binding

  /** `match[i + 1]`, which is `undefined` past the last group. */
  function Capture(caps: Captures, i: nat): Option<string> {
    if i < |caps| then caps[i] else None
  }

  /**
   * The value bound for parameter `name`: the capture (or `null`), run through `parseInt`
   * or `parseFloat` when the schema declares the property `integer` or `number`. Both
   * parsers see `String(value)`, so a missing capture is parsed as `"null"`.
   */
  function Coerce(ps: seq<Property>, name: string, raw: Option<string>, parseFloat: string -> JsNumber): (r: Param)
    ensures Lookup(ps, name).Some? && Lookup(ps, name).value.kind == Some("integer") ==>
              r == PNum(ParseInt(if raw.Some? then raw.value else "null"))
    ensures Lookup(ps, name).Some? && Lookup(ps, name).value.kind == Some("number") ==>
              r == PNum(parseFloat(if raw.Some? then raw.value else "null"))
    ensures !(Lookup(ps, name).Some? && Lookup(ps, name).value.kind in {Some("integer"), Some("number")}) ==>
              r == (if raw.Some? then PStr(raw.value) else PNull)
  {
    var text := if raw.Some? then raw.value else "null";
    var plain := if raw.Some? then PStr(raw.value) else PNull;
    match Lookup(ps, name)
    case None => plain
    case Some(p) =>
      if p.kind == Some("integer") then PNum(ParseInt(text))
      else if p.kind == Some("number") then PNum(parseFloat(text))
      else plain
  }

  /** No later parameter name repeats `keys[j]`, so the binding at `j` is the one that stays. */
  predicate LastOccurrence(keys: seq<string>, j: nat)
    requires j < |keys|
  {
    forall l :: j < l < |keys| ==> keys[l] != keys[j]
  }

  /**
   * Bind every parameter name of the pattern to its capture, in order: a repeated name is
   * bound by its last occurrence, and parameters not named by the pattern are untouched.
   */
  function BindFrom(keys: seq<string>, caps: Captures, ps: seq<Property>, params: map<string, Param>,
                    parseFloat: string -> JsNumber, i: nat): (r: map<string, Param>)
    requires i <= |keys|
    decreases |keys| - i
    ensures r.Keys == params.Keys + set j | i <= j < |keys| :: keys[j]
    ensures forall n :: n in params && n !in keys[i..] ==> r[n] == params[n]
    ensures forall j :: i <= j < |keys| && LastOccurrence(keys, j) ==>
              r[keys[j]] == Coerce(ps, keys[j], Capture(caps, j), parseFloat)
  {
    if i == |keys| then params
    else
      var next := params[keys[i] := Coerce(ps, keys[i], Capture(caps, i), parseFloat)];
      var r := BindFrom(keys, caps, ps, next, parseFloat, i + 1);
      assert forall n :: n !in keys[i..] ==> n != keys[i] && n !in keys[i + 1..] by {
        assert forall n :: n in keys[i + 1..] ==> n in keys[i..];
        assert keys[i] in keys[i..];
      }
      assert LastOccurrence(keys, i) ==> keys[i] !in keys[i + 1..];
      r
  }

  /**
   * The binding step of `handle`: when the pattern has parameters, the schema must declare
   * `properties`, or reading them throws.
   */
  function BindParams(keys: seq<string>, caps: Captures, schema: Schema, params: map<string, Param>,
                      parseFloat: string -> JsNumber): (r: Result<map<string, Param>, Failure>)
    ensures r.Failure? <==> |keys| > 0 && schema.properties.NoProperties?
    ensures r.Failure? ==> r.error == PropertiesUndefined
    ensures r.Success? ==> r.value.Keys == params.Keys + set j | 0 <= j < |keys| :: keys[j]
    ensures r.Success? ==> forall n :: n in params && n !in keys ==> r.value[n] == params[n]
    ensures r.Success? ==> forall j :: 0 <= j < |keys| && LastOccurrence(keys, j) ==>
              r.value[keys[j]] == Coerce(schema.properties.list, keys[j], Capture(caps, j), parseFloat)
  {
    if keys == [] then Success(params)
    else if schema.properties.NoProperties? then Failure(PropertiesUndefined)
    else
      assert keys[0..] == keys;
      Success(BindFrom(keys, caps, schema.properties.list, params, parseFloat, 0))
  }

  // ---------------------------------------------------------------- OPTIONS

  /** The method keys OPTIONS reports; any other key is skipped. */
  const Verbs: seq<string> := ["get", "post", "put", "patch", "delete"]

  /**
   * The `methods` of an OPTIONS reply: each method key among `Verbs` upper-cased, in the
   * order the keys are enumerated, then `OPTIONS`, which is always supported.
   */
  function Methods(handlers: seq<(string, Handler)>): (r: seq<string>)
    ensures |r| >= 1 && r[|r| - 1] == "OPTIONS"
    ensures r[..|r| - 1] == VerbMethods(handlers)
  {
    var r := VerbMethods(handlers) + ["OPTIONS"];
    assert r[..|r| - 1] == VerbMethods(handlers);
    r
  }

  /** Some key among `handlers` is a verb that upper-cases to `m`. */
  predicate IsVerbMethod(m: string, handlers: seq<(string, Handler)>) {
    exists i :: 0 <= i < |handlers| && handlers[i].0 in Verbs && m == ToUpper(handlers[i].0)
  }

  lemma {:induction false} IsVerbMethodSplit(m: string, handlers: seq<(string, Handler)>)
    requires handlers != []
    ensures IsVerbMethod(m, handlers) <==>
              (handlers[0].0 in Verbs && m == ToUpper(handlers[0].0)) || IsVerbMethod(m, handlers[1..])
  {
    var tail := handlers[1..];
    if IsVerbMethod(m, handlers) && !(handlers[0].0 in Verbs && m == ToUpper(handlers[0].0)) {
      var i :| 0 <= i < |handlers| && handlers[i].0 in Verbs && m == ToUpper(handlers[i].0);
      assert i > 0 && tail[i - 1] == handlers[i];
    }
    if IsVerbMethod(m, tail) {
      var i :| 0 <= i < |tail| && tail[i].0 in Verbs && m == ToUpper(tail[i].0);
      assert handlers[i + 1] == tail[i];
    }
  }

  /** Every handler key upper-cased, in enumeration order. */
  function UpperKeys(handlers: seq<(string, Handler)>): (r: seq<string>)
    ensures |r| == |handlers| && forall i :: 0 <= i < |handlers| ==> r[i] == ToUpper(handlers[i].0)
  {
    if handlers == [] then [] else [ToUpper(handlers[0].0)] + UpperKeys(handlers[1..])
  }

  /** The upper-cased verb keys, in enumeration order. */
  function VerbMethods(handlers: seq<(string, Handler)>): (r: seq<string>)
    ensures forall m :: m in r <==> IsVerbMethod(m, handlers)
    ensures "OPTIONS" !in r
    ensures |r| <= |handlers|
    ensures SubsequenceOf(r, UpperKeys(handlers))
  {
    if handlers == [] then []
    else
      var rest := VerbMethods(handlers[1..]);
      var k := handlers[0].0;
      var r := if k in Verbs then [ToUpper(k)] + rest else rest;
      assert k in Verbs ==> |ToUpper(k)| < |"OPTIONS"|;
      forall m ensures m in r <==> IsVerbMethod(m, handlers) {
        IsVerbMethodSplit(m, handlers);
      }
      assert UpperKeys(handlers)[1..] == UpperKeys(handlers[1..]);
      if k in Verbs then SubsequenceKeepsHead(rest, UpperKeys(handlers)); r
      else SubsequenceDropsHead(rest, UpperKeys(handlers)); r
  }

  // ---------------------------------------------------------------- handler selection

  /**
   * `route.handlers[method]`, if the key is present. Handler keys are distinct in every
   * reachable route, so taking the first entry with the key is the only choice.
   */
  function HandlerFor(handlers: seq<(string, Handler)>, key: string): (r: Option<Handler>)
    ensures r.Some? <==> exists i :: 0 <= i < |handlers| && handlers[i].0 == key
    ensures r.Some? ==> exists i :: 0 <= i < |handlers| && handlers[i] == (key, r.value)
  {
    if handlers == [] then None
    else if handlers[0].0 == key then Some(handlers[0].1)
    else
      var rest := HandlerFor(handlers[1..], key);
      assert forall i :: 1 <= i < |handlers| ==> handlers[i] == handlers[1..][i - 1];
      assert rest.Some? ==> exists i :: 0 <= i < |handlers[1..]| && handlers[1..][i] == (key, rest.value);
      rest
  }

  /** `_.intersection(requested, handler.props).length`: some requested prop is among them. */
  predicate Overlaps(handlerProps: seq<string>, requested: seq<string>) {
    exists x :: x in handlerProps && x in requested
  }

  /** Whether a partial handler is selected for the requested props. */
  predicate Wanted(h: PartialHandler, requested: seq<string>) {
    requested == [] || Overlaps(h.props, requested)
  }

  /** The partial handlers' selection test as a predicate on entries. */
  function WantedBy(requested: seq<string>): PartialHandler -> bool {
    (h: PartialHandler) => Wanted(h, requested)
  }

  /**
   * The callbacks of the wanted partial handlers at or after `from`: one per wanted entry,
   * in registration order, even when two entries share a callback.
   */
  function SelectPartials(entries: seq<PartialHandler>, requested: seq<string>, from: nat): (r: seq<Callback>)
    requires from <= |entries|
    decreases |entries| - from
    ensures var idx := IndicesWhere(entries, WantedBy(requested), from);
            |r| == |idx| && forall k :: 0 <= k < |r| ==> r[k] == entries[idx[k]].callback
    ensures |r| <= |entries| - from
    ensures requested == [] ==> |r| == |entries| - from
    ensures forall c :: c in r <==>
              exists i :: from <= i < |entries| && entries[i].callback == c && Wanted(entries[i], requested)
    ensures SubsequenceOf(r, AllCallbacks(entries)[from..])
  {
    if from == |entries| then []
    else
      var rest := SelectPartials(entries, requested, from + 1);
      var r := if Wanted(entries[from], requested) then [entries[from].callback] + rest else rest;
      SelectionKeepsPositions(entries, requested, from, rest, r);
      SelectionKeepsOrder(entries, requested, from, rest, r);
      r
  }

  /** One step of `SelectPartials`: the entry at `from` is kept exactly when it is wanted. */
  lemma {:induction false} SelectionKeepsPositions(entries: seq<PartialHandler>, requested: seq<string>, from: nat,
                                                   rest: seq<Callback>, r: seq<Callback>)
    requires from < |entries|
    requires var idx := IndicesWhere(entries, WantedBy(requested), from + 1);
             |rest| == |idx| && forall k :: 0 <= k < |rest| ==> rest[k] == entries[idx[k]].callback
    requires r == if Wanted(entries[from], requested) then [entries[from].callback] + rest else rest
    ensures var idx := IndicesWhere(entries, WantedBy(requested), from);
            |r| == |idx| && forall k :: 0 <= k < |r| ==> r[k] == entries[idx[k]].callback
  {
    var idx := IndicesWhere(entries, WantedBy(requested), from);
    var tail := IndicesWhere(entries, WantedBy(requested), from + 1);
    IndicesWhereStep(entries, WantedBy(requested), from);
    assert WantedBy(requested)(entries[from]) == Wanted(entries[from], requested);
    if Wanted(entries[from], requested) {
      assert idx == [from] + tail;
      forall k | 0 <= k < |r| ensures r[k] == entries[idx[k]].callback {
        if k > 0 {
          assert r[k] == rest[k - 1] && idx[k] == tail[k - 1];
        }
      }
    }
  }

  /** One step of `SelectPartials`: keeping or dropping the entry at `from` keeps the order. */
  lemma {:induction false} SelectionKeepsOrder(entries: seq<PartialHandler>, requested: seq<string>, from: nat,
                                               rest: seq<Callback>, r: seq<Callback>)
    requires from < |entries| && SubsequenceOf(rest, AllCallbacks(entries)[from + 1..])
    requires r == if Wanted(entries[from], requested) then [entries[from].callback] + rest else rest
    ensures SubsequenceOf(r, AllCallbacks(entries)[from..])
  {
    var all := AllCallbacks(entries)[from..];
    assert all[1..] == AllCallbacks(entries)[from + 1..];
    if Wanted(entries[from], requested) {
      SubsequenceKeepsHead(rest, all);
    } else {
      SubsequenceDropsHead(rest, all);
    }
  }

  function AllCallbacks(entries: seq<PartialHandler>): (r: seq<Callback>)
    ensures |r| == |entries| && forall i :: 0 <= i < |entries| ==> r[i] == entries[i].callback
  {
    if entries == [] then [] else [entries[0].callback] + AllCallbacks(entries[1..])
  }

  /** The callbacks `handle` invokes for the registered value of the method key. */
  function Select(h: Handler, requested: seq<string>): (r: seq<Callback>)
    ensures h.Whole? ==> r == [h.callback]
    ensures h.Neither? ==> r == []
    ensures h.Partials? ==> forall c :: c in r <==>
              exists i :: 0 <= i < |h.entries| && h.entries[i].callback == c && Wanted(h.entries[i], requested)
  {
    match h
    case Whole(c) => [c]
    case Partials(entries) => SelectPartials(entries, requested, 0)
    case Neither => []
  }

  // ---------------------------------------------------------------- invocation

  /**
   * `Promise.all` over the selected handlers: every result in order, or the reason of the
   * first handler (in invocation order) that rejects.
   */
  function Gather(callbacks: seq<Callback>, request: Request, run: (Callback, Request) -> Settled): (r: Result<seq<Value>, Value>)
    ensures r.Success? <==> forall i :: 0 <= i < |callbacks| ==> run(callbacks[i], request).Fulfilled?
    ensures r.Success? ==>
              (&& |r.value| == |callbacks|
               && forall i :: 0 <= i < |callbacks| ==> run(callbacks[i], request) == Fulfilled(r.value[i]))
    ensures r.Failure? ==>
              exists i :: (&& 0 <= i < |callbacks|
                           && run(callbacks[i], request) == Rejected(r.error)
                           && forall j :: 0 <= j < i ==> run(callbacks[j], request).Fulfilled?)
  {
    if callbacks == [] then Success([])
    else
      match run(callbacks[0], request)
      case Rejected(reason) => Failure(reason)
      case Fulfilled(v) =>
        var rest := Gather(callbacks[1..], request, run);
        assert forall i :: 1 <= i < |callbacks| ==> callbacks[i] == callbacks[1..][i - 1];
        if rest.Failure? then
          var k :| 0 <= k < |callbacks[1..]| && run(callbacks[1..][k], request) == Rejected(rest.error) &&
                   forall j :: 0 <= j < k ==> run(callbacks[1..][j], request).Fulfilled?;
          assert run(callbacks[k + 1], request) == Rejected(rest.error);
          Failure(rest.error)
        else
          Success([v] + rest.value)
  }

  // ---------------------------------------------------------------- projection

  /** A field whose name starts with `$` carries protocol metadata and is never pruned. */
  predicate IsMeta(k: string) {
    |k| > 0 && k[0] == '$'
  }

  /** A requested prop that a truthy parameter of the same name can supply. */
  predicate Reflectable(p: string, params: map<string, Param>) {
    p in params && Truthy(params[p])
  }

  /** Fill each requested prop the result lacks from a truthy parameter of the same name. */
  function Backfill(fields: map<string, Value>, props: seq<string>, params: map<string, Param>): (r: map<string, Value>)
    ensures r.Keys == fields.Keys + set p | p in props && Reflectable(p, params)
    ensures forall k :: k in fields ==> r[k] == fields[k]
    ensures forall k :: k in r && k !in fields ==> Reflectable(k, params) && r[k] == ParamValue(params[k])
    decreases props
  {
    if props == [] then fields
    else
      var p := props[0];
      var next := if p !in fields && Reflectable(p, params) then fields[p := ParamValue(params[p])] else fields;
      var r := Backfill(next, props[1..], params);
      assert forall q :: q in props <==> q == p || q in props[1..];
      r
  }

  /** `props.filter(prop => !result.hasOwnProperty(prop))`, duplicates kept. */
  function Unfound(props: seq<string>, fields: map<string, Value>): (r: seq<string>)
    ensures forall p :: p in r <==> p in props && p !in fields
    ensures SubsequenceOf(r, props)
  {
    if props == [] then []
    else
      var rest := Unfound(props[1..], fields);
      if props[0] !in fields then
        SubsequenceKeepsHead(rest, props);
        [props[0]] + rest
      else
        SubsequenceDropsHead(rest, props);
        rest
  }

  /** `k` is the decimal string of an index below `n`. */
  predicate IsIndex(k: string, n: nat) {
    exists i :: 0 <= i < n && k == Numeral(i)
  }

  lemma {:induction false} IsIndexStep(k: string, n: nat)
    ensures IsIndex(k, n + 1) <==> k == Numeral(n) || IsIndex(k, n)
  {
    if IsIndex(k, n + 1) && k != Numeral(n) {
      var i :| 0 <= i < n + 1 && k == Numeral(i);
      assert i < n;
    }
  }

  /** A string with a character other than a decimal digit is no index. */
  lemma {:induction false} NonDigitNotIndex(k: string, n: nat, j: nat)
    requires j < |k| && !IsDigit(k[j], 10)
    ensures !IsIndex(k, n)
  {
    forall i | 0 <= i < n ensures k != Numeral(i) {
      if j < |Numeral(i)| {
        assert IsDigit(Numeral(i)[j], 10);
      }
    }
  }

  /** The items of a sequence keyed by their indices as decimal strings, as an array exposes them. */
  function Indexed(items: seq<Value>): map<string, Value> {
    if items == [] then map[]
    else Indexed(items[..|items| - 1])[Numeral(|items| - 1) := items[|items| - 1]]
  }

  lemma {:induction false} IndexedKeys(items: seq<Value>)
    ensures forall k :: k in Indexed(items) <==> IsIndex(k, |items|)
  {
    if items != [] {
      var n := |items| - 1;
      var prev := Indexed(items[..n]);
      IndexedKeys(items[..n]);
      assert |items[..n]| == n;
      assert Indexed(items) == prev[Numeral(n) := items[n]];
      forall k ensures k in Indexed(items) <==> IsIndex(k, |items|) {
        IsIndexStep(k, n);
      }
    }
  }

  /**
   * The properties `hasOwnProperty` finds on a merged result: an object's fields; the
   * indices and `length` of an array, or of the `String` wrapper of a string; nothing on
   * `null`, a boolean or a number, which lodash's merge wraps as objects without own keys.
   */
  function OwnFields(v: Value): (r: map<string, Value>)
    ensures v.Obj? ==> r == v.fields
    ensures v.Arr? ==> forall k :: k in r <==> k == "length" || IsIndex(k, |v.items|)
    ensures v.Str? ==> forall k :: k in r <==> k == "length" || IsIndex(k, |v.s|)
    ensures v.Null? || v.Bool? || v.Num? ==> r == map[]
  {
    match v
    case Obj(f) => f
    case Arr(items) =>
      IndexedKeys(items);
      Indexed(items)["length" := Num(Finite(|items| as real))]
    case Str(t) =>
      var chars := seq(|t|, i requires 0 <= i < |t| => Str([t[i]]));
      IndexedKeys(chars);
      Indexed(chars)["length" := Num(Finite(|t| as real))]
    case _ => map[]
  }

  /**
   * The requested props that neither the merged result nor a parameter can produce, in
   * request order.
   */
  function Missing(props: seq<string>, merged: map<string, Value>, params: map<string, Param>): (r: seq<string>)
    ensures forall p :: p in r <==> p in props && p !in merged && !Reflectable(p, params)
  {
    if props == [] then []
    else
      var rest := Missing(props[1..], merged, params);
      if props[0] !in merged && !Reflectable(props[0], params) then [props[0]] + rest else rest
  }

  lemma {:induction false} UnfoundIsMissing(props: seq<string>, all: seq<string>, merged: map<string, Value>,
                                            filled: map<string, Value>, params: map<string, Param>)
    requires forall p :: p in props ==> p in all
    requires forall p :: p in all ==> (p in filled <==> p in merged || Reflectable(p, params))
    ensures Unfound(props, filled) == Missing(props, merged, params)
  {
    if props != [] {
      UnfoundIsMissing(props[1..], all, merged, filled, params);
    }
  }

  function UnresolvedMessage(missing: seq<string>, resourceId: string): string {
    "Unable to resolve props " + Join(missing, ", ") + " for resource " + resourceId
  }

  /**
   * Field projection: with requested props, keep only those and the `$` fields, backfill
   * absent ones from truthy parameters, and fail naming the props still absent. On an array
   * the unrequested indices are deleted, so a requested prop is found only as a kept index,
   * as `length` or as a parameter.
   */
  function Project(merged: Value, props: seq<string>, params: map<string, Param>, resourceId: string): (r: Result<Value, string>)
    ensures props == [] ==> r == Success(merged)
    ensures props != [] ==> (r.Failure? <==> Missing(props, OwnFields(merged), params) != [])
    ensures props != [] && r.Failure? ==>
              r.error == UnresolvedMessage(Missing(props, OwnFields(merged), params), resourceId)
    ensures props != [] && !merged.Obj? && r.Success? ==> r == Success(merged)
    ensures props != [] && merged.Obj? && r.Success? ==>
              (&& r.value.Obj?
               && (forall k :: k in r.value.fields <==> k in props || (IsMeta(k) && k in merged.fields))
               && (forall k :: k in r.value.fields && k in merged.fields ==> r.value.fields[k] == merged.fields[k])
               && (forall k :: k in r.value.fields && k !in merged.fields ==>
                     Reflectable(k, params) && r.value.fields[k] == ParamValue(params[k])))
  {
    if props == [] then Success(merged)
    else
      var f := OwnFields(merged);
      var kept := map k | k in f && (IsMeta(k) || k in props) :: f[k];
      var filled := Backfill(kept, props, params);
      var unfound := Unfound(props, filled);
      UnfoundIsMissing(props, props, f, filled, params);
      if unfound != [] then Failure(UnresolvedMessage(unfound, resourceId))
      else if merged.Obj? then Success(Obj(filled))
      else Success(merged)
  }

  // ---------------------------------------------------------------- dispatch

  /**
   * Some result is an array holding `null`: reading `toRepresentation` from that item, as
   * every array item is duck-typed before the merge, throws.
   */
  predicate HasNullItem(results: seq<Value>) {
    exists i :: 0 <= i < |results| && results[i].Arr? && Null in results[i].items
  }

  /** A failure reached before any handler is called. */
  predicate Early(f: Failure) {
    f.NoHandlers? || f.NoHandlerFor? || f.PropertiesUndefined?
  }

  /**
   * What happens once the handlers are selected, as the code evidently intends: invoke,
   * merge, project, validate, and reject unresolved props with a message naming them.
   */
  function SettleIntended(selected: seq<Callback>, bound: Request, schema: Schema, run: (Callback, Request) -> Settled,
                          valid: (Schema, Value) -> bool): (r: Outcome)
    ensures !r.Described?
    ensures r.Done? ==> valid(schema, r.value)
    ensures r.Failed? ==> !Early(r.failure) && !r.failure.EmitterUnbound?
    ensures r.Failed? && r.failure.DidNotValidate? ==> !valid(schema, r.failure.data)
    ensures (r.Failed? && r.failure.HandlerRejected?) <==> Gather(selected, bound, run).Failure?
    ensures (r.Failed? && r.failure.NullItem?) <==> var g := Gather(selected, bound, run); g.Success? && HasNullItem(g.value)
    ensures var g := Gather(selected, bound, run);
            g.Success? && !HasNullItem(g.value) ==>
              var p := Project(MergeAll(g.value), bound.props, bound.params, bound.resourceId);
              && (r.Done? <==> p.Success? && valid(schema, p.value))
              && (r.Done? ==> r.value == p.value)
              && ((r.Failed? && r.failure.UnresolvedProps?) <==> p.Failure?)
              && (r.Failed? && r.failure.UnresolvedProps? ==> r.failure.message == p.error)
              && (r.Failed? && r.failure.DidNotValidate? ==> p.Success? && r.failure.data == p.value)
  {
    match Gather(selected, bound, run)
    case Failure(reason) => Failed(HandlerRejected(reason))
    case Success(results) =>
      if HasNullItem(results) then Failed(NullItem)
      else
        match Project(MergeAll(results), bound.props, bound.params, bound.resourceId)
        case Failure(message) => Failed(UnresolvedProps(message))
        case Success(v) => if valid(schema, v) then Done(v) else Failed(DidNotValidate(v))
  }

  /**
   * What happens once the handlers are selected, as written. The merge-and-project callback
   * is passed to `then` unbound, so in sloppy mode its `this` is the global object: reaching
   * the `api:error` emit with unresolved props throws a `TypeError`, which rejects the
   * dispatch before the message naming the props is built.
   */
  function Settle(selected: seq<Callback>, bound: Request, schema: Schema, run: (Callback, Request) -> Settled,
                  valid: (Schema, Value) -> bool): (r: Outcome)
    ensures !r.Described?
    ensures r.Done? ==> valid(schema, r.value)
    ensures r.Failed? ==> !Early(r.failure) && !r.failure.UnresolvedProps?
    ensures r.Failed? && r.failure.DidNotValidate? ==> !valid(schema, r.failure.data)
    ensures (r.Failed? && r.failure.HandlerRejected?) <==> Gather(selected, bound, run).Failure?
    ensures (r.Failed? && r.failure.NullItem?) <==> var g := Gather(selected, bound, run); g.Success? && HasNullItem(g.value)
    ensures var g := Gather(selected, bound, run);
            g.Success? && !HasNullItem(g.value) ==>
              var p := Project(MergeAll(g.value), bound.props, bound.params, bound.resourceId);
              && (r.Done? <==> p.Success? && valid(schema, p.value))
              && (r.Done? ==> r.value == p.value)
              && ((r.Failed? && r.failure.EmitterUnbound?) <==> p.Failure?)
              && (r.Failed? && r.failure.DidNotValidate? ==> p.Success? && r.failure.data == p.value)
  {
    var intended := SettleIntended(selected, bound, schema, run, valid);
    if intended.Failed? && intended.failure.UnresolvedProps? then Failed(EmitterUnbound) else intended
  }

  /**
   * `handle(request)`: take the first route matching the resource id, bind its parameters,
   * answer OPTIONS from the handler keys, and otherwise run the handlers for the method.
   */
  function Handle(routes: seq<Route>, request: Request, run: (Callback, Request) -> Settled,
                  parseFloat: string -> JsNumber, valid: (Schema, Value) -> bool): (r: Response)
    ensures FirstMatch(routes, request.resourceId).None? ==> r == Response([], Failed(NoHandlers))
    ensures ToLower(request.verb) == "options" ==> r.invoked == []
    ensures r.outcome.Described? ==> ToLower(request.verb) == "options"
    ensures r.invoked == [] <==> (r.outcome.Described? || (r.outcome.Failed? && Early(r.outcome.failure)))
    ensures r.invoked != [] ==> var i := FirstMatch(routes, request.resourceId).value;
              var h := HandlerFor(routes[i].handlers, ToLower(request.verb));
              h.Some? && r.invoked == Select(h.value, request.props)
    ensures r.outcome.Done? ==> valid(routes[FirstMatch(routes, request.resourceId).value].schema, r.outcome.value)
    ensures r.outcome.Described? ==>
              && FirstMatch(routes, request.resourceId).Some?
              && var route := routes[FirstMatch(routes, request.resourceId).value];
                 r.outcome == Described(route.schema, Methods(route.handlers))
    ensures r.outcome.Failed? && r.outcome.failure.NoHandlerFor? ==>
              && FirstMatch(routes, request.resourceId).Some?
              && HandlerFor(routes[FirstMatch(routes, request.resourceId).value].handlers, ToLower(request.verb)).None?
              && r.outcome.failure.message == "No " + ToLower(request.verb) + " handler for " + request.resourceId
    ensures r.outcome.Failed? && r.outcome.failure.NoHandlers? && FirstMatch(routes, request.resourceId).Some? ==>
              var route := routes[FirstMatch(routes, request.resourceId).value];
              var h := HandlerFor(route.handlers, ToLower(request.verb));
              h.Some? && Select(h.value, request.props) == []
    ensures r.invoked != [] ==>
              var route := routes[FirstMatch(routes, request.resourceId).value];
              var bound := BindParams(route.compiled.keys, route.compiled.matcher[request.resourceId], route.schema,
                                      request.params, parseFloat);
              bound.Success? && r.outcome == Settle(r.invoked, request.(params := bound.value), route.schema, run, valid)
  {
    var lc := ToLower(request.verb);
    match FirstMatch(routes, request.resourceId)
    case None => Response([], Failed(NoHandlers))
    case Some(i) =>
      var route := routes[i];
      var caps := route.compiled.matcher[request.resourceId];
      match BindParams(route.compiled.keys, caps, route.schema, request.params, parseFloat)
      case Failure(f) => Response([], Failed(f))
      case Success(params) =>
        if lc == "options" then Response([], Described(route.schema, Methods(route.handlers)))
        else
          match HandlerFor(route.handlers, lc)
          case None => Response([], Failed(NoHandlerFor("No " + lc + " handler for " + request.resourceId)))
          case Some(h) =>
            var selected := Select(h, request.props);
            if selected == [] then Response([], Failed(NoHandlers))
            else Response(selected, Settle(selected, request.(params := params), route.schema, run, valid))
  }
}

=== FILE: router_proofs.dfy ===
/** Properties of dispatch that relate several calls, and the router's documented examples. */
module RouterProofs {
  import opened Wrappers
  import opened Json
  import opened Schemas
  import opened Strings
  import opened JsParseInt
  import opened Router
  import opened Merging

  /** Appending a route never changes which route an already-matching resource id resolves to. */
  lemma {:induction false} FirstMatchExtend(routes: seq<Route>, added: Route, resourceId: string)
    ensures FirstMatch(routes, resourceId).Some? ==> FirstMatch(routes + [added], resourceId) == FirstMatch(routes, resourceId)
    ensures FirstMatch(routes, resourceId).None? ==>
              FirstMatch(routes + [added], resourceId) == (if Matches(added, resourceId) then Some(|routes|) else None)
  {
    var both := routes + [added];
    if routes != [] {
      assert both[0] == routes[0];
      assert both[1..] == routes[1..] + [added];
      FirstMatchExtend(routes[1..], added, resourceId);
    } else {
      assert both == [added];
    }
  }

  /** Only the first matching route takes part in handling: the others could be absent. */
  lemma {:induction false} HandleUsesFirstMatchOnly(routes: seq<Route>, request: Request, run: (Callback, Request) -> Settled,
                                 parseFloat: string -> JsNumber, valid: (Schema, Value) -> bool, i: nat)
    requires FirstMatch(routes, request.resourceId) == Some(i)
    ensures Handle(routes, request, run, parseFloat, valid) == Handle([routes[i]], request, run, parseFloat, valid)
  {
    assert FirstMatch([routes[i]], request.resourceId) == Some(0);
  }

  /**
   * Registration order is match priority: a route registered later never takes over a
   * resource id that an earlier route already matches.
   */
  lemma {:induction false} RegisterKeepsEarlierMatches(routes: seq<Route>, pattern: string, schema: Schema,
                                    handlers: seq<(string, Handler)>, schemaValid: Schema -> bool,
                                    compile: string -> Compiled, request: Request,
                                    run: (Callback, Request) -> Settled, parseFloat: string -> JsNumber,
                                    valid: (Schema, Value) -> bool)
    requires Register(routes, pattern, schema, handlers, schemaValid, compile).Success?
    requires FirstMatch(routes, request.resourceId).Some?
    ensures var table := Register(routes, pattern, schema, handlers, schemaValid, compile).value;
            Handle(table, request, run, parseFloat, valid) == Handle(routes, request, run, parseFloat, valid)
  {
    var table := Register(routes, pattern, schema, handlers, schemaValid, compile).value;
    FirstMatchExtend(routes, table[|routes|], request.resourceId);
    assert table == routes + [table[|routes|]];
  }

  /**
   * OPTIONS on a matched route describes it without calling any handler: the schema and
   * the supported methods.
   */
  lemma {:induction false} HandleOptionsDescribes(routes: seq<Route>, request: Request, run: (Callback, Request) -> Settled,
                               parseFloat: string -> JsNumber, valid: (Schema, Value) -> bool, i: nat)
    requires FirstMatch(routes, request.resourceId) == Some(i)
    requires ToLower(request.verb) == "options"
    requires |routes[i].compiled.keys| == 0 || routes[i].schema.properties.Declared?
    ensures Handle(routes, request, run, parseFloat, valid)
         == Response([], Described(routes[i].schema, Methods(routes[i].handlers)))
  {
  }

  /** A method the matched route has no key for is rejected by name, and nothing is called. */
  lemma {:induction false} HandleMissingMethod(routes: seq<Route>, request: Request, run: (Callback, Request) -> Settled,
                            parseFloat: string -> JsNumber, valid: (Schema, Value) -> bool, i: nat)
    requires FirstMatch(routes, request.resourceId) == Some(i)
    requires |routes[i].compiled.keys| == 0 || routes[i].schema.properties.Declared?
    requires ToLower(request.verb) != "options"
    requires forall j :: 0 <= j < |routes[i].handlers| ==> routes[i].handlers[j].0 != ToLower(request.verb)
    ensures Handle(routes, request, run, parseFloat, valid)
         == Response([], Failed(NoHandlerFor("No " + ToLower(request.verb) + " handler for " + request.resourceId)))
  {
  }

  /**
   * A method key the matched route registers as partial handlers, none of which produces a
   * requested prop, is rejected with 'No handlers' before anything is called.
   */
  lemma {:induction false} HandleNoOverlap(routes: seq<Route>, request: Request, run: (Callback, Request) -> Settled,
                                           parseFloat: string -> JsNumber, valid: (Schema, Value) -> bool,
                                           i: nat, bound: map<string, Param>, entries: seq<PartialHandler>)
    requires FirstMatch(routes, request.resourceId) == Some(i)
    requires BindParams(routes[i].compiled.keys, routes[i].compiled.matcher[request.resourceId],
                        routes[i].schema, request.params, parseFloat) == Success(bound)
    requires ToLower(request.verb) != "options"
    requires HandlerFor(routes[i].handlers, ToLower(request.verb)) == Some(Partials(entries))
    requires request.props != []
    requires forall j :: 0 <= j < |entries| ==> !Overlaps(entries[j].props, request.props)
    ensures Handle(routes, request, run, parseFloat, valid) == Response([], Failed(NoHandlers))
  {
    var selected := Select(Partials(entries), request.props);
    if selected != [] {
      assert false;
    }
  }

  /** Once handlers are selected, `handle` is `Settle` on the request with the bound parameters. */
  lemma {:induction false} HandleSettles(routes: seq<Route>, request: Request, run: (Callback, Request) -> Settled,
                                         parseFloat: string -> JsNumber, valid: (Schema, Value) -> bool,
                                         i: nat, bound: map<string, Param>, h: Handler)
    requires FirstMatch(routes, request.resourceId) == Some(i)
    requires BindParams(routes[i].compiled.keys, routes[i].compiled.matcher[request.resourceId],
                        routes[i].schema, request.params, parseFloat) == Success(bound)
    requires ToLower(request.verb) != "options"
    requires HandlerFor(routes[i].handlers, ToLower(request.verb)) == Some(h)
    requires Select(h, request.props) != []
    ensures Handle(routes, request, run, parseFloat, valid)
         == Response(Select(h, request.props),
                     Settle(Select(h, request.props), request.(params := bound), routes[i].schema, run, valid))
  {
  }

  /** Handlers that all fulfil gather into their results, in order. */
  lemma {:induction false} GatherAll(callbacks: seq<Callback>, request: Request, run: (Callback, Request) -> Settled,
                                     vs: seq<Value>)
    requires |vs| == |callbacks| && forall k :: 0 <= k < |vs| ==> run(callbacks[k], request) == Fulfilled(vs[k])
    ensures Gather(callbacks, request, run) == Success(vs)
  {
    var g := Gather(callbacks, request, run);
    assert g.Success?;
    assert g.value == vs;
  }

  /** Some partial handler overlaps the requested props, so at least one is selected. */
  lemma {:induction false} OverlapSelects(entries: seq<PartialHandler>, props: seq<string>)
    requires exists j :: 0 <= j < |entries| && Overlaps(entries[j].props, props)
    ensures Select(Partials(entries), props) != []
  {
    var j :| 0 <= j < |entries| && Overlaps(entries[j].props, props);
    assert entries[j].callback in Select(Partials(entries), props);
  }

  /**
   * Object results that, with the parameters, cover every requested prop project onto
   * exactly the requested props and the `$` fields.
   */
  lemma {:induction false} ProjectCovered(vs: seq<Value>, props: seq<string>, params: map<string, Param>, resourceId: string)
    requires vs != [] && AllObjects(vs) && props != []
    requires forall p :: p in props ==> InSome(p, vs) || Reflectable(p, params)
    ensures MergeAll(vs).Obj?
    ensures var r := Project(MergeAll(vs), props, params, resourceId);
            && r.Success? && r.value.Obj?
            && (forall k :: k in r.value.fields <==> k in props || (IsMeta(k) && InSome(k, vs)))
            && (forall k :: k in r.value.fields && InSome(k, vs) ==>
                  k in MergeAll(vs).fields && r.value.fields[k] == MergeAll(vs).fields[k])
            && (forall k :: k in r.value.fields && !InSome(k, vs) ==>
                  Reflectable(k, params) && r.value.fields[k] == ParamValue(params[k]))
  {
    MergeAllKeys(vs);
    NothingMissing(props, MergeAll(vs).fields, params);
  }

  /** Every requested prop that the merged result or a parameter supplies leaves nothing missing. */
  lemma {:induction false} NothingMissing(props: seq<string>, merged: map<string, Value>, params: map<string, Param>)
    requires forall p :: p in props ==> p in merged || Reflectable(p, params)
    ensures Missing(props, merged, params) == []
  {
    if props != [] {
      assert props[0] in props;
      NothingMissing(props[1..], merged, params);
    }
  }

  /** A requested prop neither the results nor a truthy parameter supply fails the projection. */
  lemma {:induction false} ProjectUncovered(vs: seq<Value>, props: seq<string>, params: map<string, Param>,
                                            resourceId: string, p: string)
    requires vs != [] && AllObjects(vs)
    requires p in props && !InSome(p, vs) && !Reflectable(p, params)
    ensures var missing := Missing(props, MergeAll(vs).fields, params);
            && p in missing
            && Project(MergeAll(vs), props, params, resourceId) == Failure(UnresolvedMessage(missing, resourceId))
  {
    MergeAllKeys(vs);
  }

  /**
   * With props requested, an array result keeps only its requested indices, so a requested
   * prop that is not `length`, not an index of the array and not a truthy parameter fails
   * the projection of the whole array.
   */
  lemma {:induction false} ProjectCollectionUnresolved(items: seq<Value>, props: seq<string>,
                                                       params: map<string, Param>, resourceId: string, p: string)
    requires p in props && p != "length" && !IsIndex(p, |items|) && !Reflectable(p, params)
    ensures var missing := Missing(props, OwnFields(Arr(items)), params);
            && p in missing
            && Project(Arr(items), props, params, resourceId) == Failure(UnresolvedMessage(missing, resourceId))
  {
    assert p !in OwnFields(Arr(items));
  }

  /**
   * Handlers that all fulfil with objects which, with the request's parameters, cover every
   * requested prop settle on their merged results cut down to the requested props and the
   * `$` fields; the dispatch resolves with that value exactly when it validates.
   */
  lemma {:induction false} SettleCovered(selected: seq<Callback>, request: Request, schema: Schema,
                                         run: (Callback, Request) -> Settled, valid: (Schema, Value) -> bool,
                                         vs: seq<Value>)
    requires |vs| == |selected| && forall k :: 0 <= k < |vs| ==> run(selected[k], request) == Fulfilled(vs[k])
    requires vs != [] && AllObjects(vs) && request.props != []
    requires forall p :: p in request.props ==> InSome(p, vs) || Reflectable(p, request.params)
    ensures var r := Settle(selected, request, schema, run, valid);
            && (r.Done? || (r.Failed? && r.failure.DidNotValidate?))
            && var v := if r.Done? then r.value else r.failure.data;
               && v.Obj?
               && (forall k :: k in v.fields <==> k in request.props || (IsMeta(k) && InSome(k, vs)))
               && MergeAll(vs).Obj?
               && (forall k :: k in v.fields && InSome(k, vs) ==>
                     k in MergeAll(vs).fields && v.fields[k] == MergeAll(vs).fields[k])
               && (forall k :: k in v.fields && !InSome(k, vs) ==>
                     Reflectable(k, request.params) && v.fields[k] == ParamValue(request.params[k]))
               && (r.Done? <==> valid(schema, v))
  {
    GatherAll(selected, request, run, vs);
    ProjectCovered(vs, request.props, request.params, request.resourceId);
  }

  /**
   * Handlers that all fulfil with objects that, with the request's parameters, leave the
   * requested prop `p` unsupplied: the intended dispatch rejects with the message naming
   * every missing prop, and the dispatch as written rejects with the `TypeError` instead.
   */
  lemma {:induction false} SettleUncovered(selected: seq<Callback>, request: Request, schema: Schema,
                                           run: (Callback, Request) -> Settled, valid: (Schema, Value) -> bool,
                                           vs: seq<Value>, p: string)
    requires |vs| == |selected| && forall k :: 0 <= k < |vs| ==> run(selected[k], request) == Fulfilled(vs[k])
    requires vs != [] && AllObjects(vs)
    requires p in request.props && !InSome(p, vs) && !Reflectable(p, request.params)
    ensures MergeAll(vs).Obj? &&
            var missing := Missing(request.props, MergeAll(vs).fields, request.params);
            && p in missing
            && SettleIntended(selected, request, schema, run, valid)
               == Failed(UnresolvedProps(UnresolvedMessage(missing, request.resourceId)))
            && Settle(selected, request, schema, run, valid) == Failed(EmitterUnbound)
  {
    GatherAll(selected, request, run, vs);
    ProjectUncovered(vs, request.props, request.params, request.resourceId, p);
  }

  /**
   * The dispatch as written differs from the intended one exactly where the intended one
   * rejects for unresolved props: there it rejects with the `TypeError` of the unbound emit.
   */
  lemma {:induction false} UnresolvedEmitThrows(selected: seq<Callback>, request: Request, schema: Schema,
                                                run: (Callback, Request) -> Settled, valid: (Schema, Value) -> bool)
    ensures var intended := SettleIntended(selected, request, schema, run, valid);
            var written := Settle(selected, request, schema, run, valid);
            && (written != intended <==> intended.Failed? && intended.failure.UnresolvedProps?)
            && (written != intended ==> written == Failed(EmitterUnbound))
  {
  }

  /** The handler of the unresolved-props example: a `bar` field and nothing else. */
  function BarOnly(c: Callback, request: Request): Settled {
    Fulfilled(Obj(map["bar" := Str("x")]))
  }

  /**
   * Once the handlers fulfil with results free of `null` items whose projection fails, the
   * intended dispatch rejects with the projection's message, and the code as written with
   * the `TypeError`.
   */
  lemma {:induction false} SettleProjectionFails(selected: seq<Callback>, request: Request, schema: Schema,
                                                 run: (Callback, Request) -> Settled, valid: (Schema, Value) -> bool,
                                                 vs: seq<Value>, message: string)
    requires Gather(selected, request, run) == Success(vs) && !HasNullItem(vs)
    requires Project(MergeAll(vs), request.props, request.params, request.resourceId) == Failure(message)
    ensures SettleIntended(selected, request, schema, run, valid) == Failed(UnresolvedProps(message))
    ensures Settle(selected, request, schema, run, valid) == Failed(EmitterUnbound)
  {
  }

  /** `{ bar: "x" }` has no `zzz`, and no parameter supplies it. */
  lemma {:induction false} ZzzUnresolved()
    ensures Project(Obj(map["bar" := Str("x")]), ["zzz"], map[], "/foo")
              == Failure("Unable to resolve props zzz for resource /foo")
  {
    assert Missing(["zzz"], map["bar" := Str("x")], map[]) == ["zzz"] by {
      assert ["zzz"][1..] == [];
    }
    assert UnresolvedMessage(["zzz"], "/foo") == "Unable to resolve props zzz for resource /foo" by {
      assert Join(["zzz"], ", ") == "zzz";
    }
  }

  /**
   * GET `/foo` requesting `zzz`, answered by one handler returning `{ bar: "x" }` with no
   * parameters: the code rejects with the `TypeError`, where the message it would build is
   * "Unable to resolve props zzz for resource /foo".
   */
  lemma {:induction false} UnresolvedPropExample(schema: Schema, valid: (Schema, Value) -> bool)
    ensures var request := Request("/foo", "GET", map[], ["zzz"]);
            && Settle([0], request, schema, BarOnly, valid) == Failed(EmitterUnbound)
            && SettleIntended([0], request, schema, BarOnly, valid)
               == Failed(UnresolvedProps("Unable to resolve props zzz for resource /foo"))
  {
    var request := Request("/foo", "GET", map[], ["zzz"]);
    var v := Obj(map["bar" := Str("x")]);
    GatherAll([0], request, BarOnly, [v]);
    assert !HasNullItem([v]) by {
      assert [v][0] == v;
    }
    assert MergeAll([v]) == v;
    ZzzUnresolved();
    SettleProjectionFails([0], request, schema, BarOnly, valid, [v], "Unable to resolve props zzz for resource /foo");
  }

  /** The handler of the collection example: two items with a `bar` field each. */
  function BarItems(c: Callback, request: Request): Settled {
    Fulfilled(Arr([Obj(map["bar" := Str("1")]), Obj(map["bar" := Str("2")])]))
  }

  /** An array of two items owns `0`, `1` and `length`, but no `bar`, and no parameter supplies it. */
  lemma {:induction false} BarUnresolvedOnArray(items: seq<Value>)
    requires |items| == 2
    ensures Project(Arr(items), ["bar"], map[], "/foos") == Failure("Unable to resolve props bar for resource /foos")
  {
    NonDigitNotIndex("bar", |items|, 0);
    ProjectCollectionUnresolved(items, ["bar"], map[], "/foos", "bar");
    assert Missing(["bar"], OwnFields(Arr(items)), map[]) == ["bar"] by {
      assert ["bar"][1..] == [];
    }
    assert UnresolvedMessage(["bar"], "/foos") == "Unable to resolve props bar for resource /foos" by {
      assert Join(["bar"], ", ") == "bar";
    }
  }

  /**
   * GET `/foos` requesting `bar` from one handler returning `[{ bar: "1" }, { bar: "2" }]`:
   * the projection deletes both indices and finds no `bar` on the array, so the code rejects
   * with the `TypeError`, where it would build "Unable to resolve props bar for resource /foos".
   */
  lemma {:induction false} CollectionPropsExample(schema: Schema, valid: (Schema, Value) -> bool)
    ensures var request := Request("/foos", "GET", map[], ["bar"]);
            && Settle([0], request, schema, BarItems, valid) == Failed(EmitterUnbound)
            && SettleIntended([0], request, schema, BarItems, valid)
               == Failed(UnresolvedProps("Unable to resolve props bar for resource /foos"))
  {
    var request := Request("/foos", "GET", map[], ["bar"]);
    var items := [Obj(map["bar" := Str("1")]), Obj(map["bar" := Str("2")])];
    var v := Arr(items);
    GatherAll([0], request, BarItems, [v]);
    assert !HasNullItem([v]) by {
      assert [v][0] == v;
      assert Null !in items;
    }
    assert MergeAll([v]) == v;
    BarUnresolvedOnArray(items);
    SettleProjectionFails([0], request, schema, BarItems, valid, [v], "Unable to resolve props bar for resource /foos");
  }

  /**
   * Partial handlers that together, with the bound parameters, cover every requested prop:
   * each overlapping handler is called in registration order, and the outcome is their
   * merged results cut down to the requested props and the `$` fields, with the absent
   * props taken from the parameters; it resolves exactly when that value validates.
   */
  lemma {:induction false} HandlePartialsProject(routes: seq<Route>, request: Request, run: (Callback, Request) -> Settled,
                                                 parseFloat: string -> JsNumber, valid: (Schema, Value) -> bool,
                                                 i: nat, bound: map<string, Param>, entries: seq<PartialHandler>,
                                                 selected: seq<Callback>, vs: seq<Value>)
    requires FirstMatch(routes, request.resourceId) == Some(i)
    requires BindParams(routes[i].compiled.keys, routes[i].compiled.matcher[request.resourceId],
                        routes[i].schema, request.params, parseFloat) == Success(bound)
    requires ToLower(request.verb) != "options"
    requires HandlerFor(routes[i].handlers, ToLower(request.verb)) == Some(Partials(entries))
    requires request.props != []
    requires selected == Select(Partials(entries), request.props) && selected != []
    requires |vs| == |selected| && forall k :: 0 <= k < |vs| ==> run(selected[k], request.(params := bound)) == Fulfilled(vs[k])
    requires AllObjects(vs)
    requires forall p :: p in request.props ==> InSome(p, vs) || Reflectable(p, bound)
    ensures var r := Handle(routes, request, run, parseFloat, valid);
            && r.invoked == Select(Partials(entries), request.props)
            && (r.outcome.Done? || (r.outcome.Failed? && r.outcome.failure.DidNotValidate?))
            && var v := if r.outcome.Done? then r.outcome.value else r.outcome.failure.data;
               && v.Obj?
               && (forall k :: k in v.fields <==> k in request.props || (IsMeta(k) && InSome(k, vs)))
               && MergeAll(vs).Obj?
               && (forall k :: k in v.fields && InSome(k, vs) ==>
                     k in MergeAll(vs).fields && v.fields[k] == MergeAll(vs).fields[k])
               && (forall k :: k in v.fields && !InSome(k, vs) ==>
                     Reflectable(k, bound) && v.fields[k] == ParamValue(bound[k]))
               && (r.outcome.Done? <==> valid(routes[i].schema, v))
  {
    HandleSettles(routes, request, run, parseFloat, valid, i, bound, Partials(entries));
    SettleCovered(selected, request.(params := bound), routes[i].schema, run, valid, vs);
  }

  /**
   * When some requested prop is produced neither by the partial handlers that ran nor by a
   * truthy parameter, the request as written is rejected with the `TypeError` of the unbound
   * emit; the intended dispatch would reject naming every such prop, in request order.
   */
  lemma {:induction false} HandlePartialsUnresolved(routes: seq<Route>, request: Request, run: (Callback, Request) -> Settled,
                                                    parseFloat: string -> JsNumber, valid: (Schema, Value) -> bool,
                                                    i: nat, bound: map<string, Param>, entries: seq<PartialHandler>,
                                                    selected: seq<Callback>, vs: seq<Value>, p: string)
    requires FirstMatch(routes, request.resourceId) == Some(i)
    requires BindParams(routes[i].compiled.keys, routes[i].compiled.matcher[request.resourceId],
                        routes[i].schema, request.params, parseFloat) == Success(bound)
    requires ToLower(request.verb) != "options"
    requires HandlerFor(routes[i].handlers, ToLower(request.verb)) == Some(Partials(entries))
    requires selected == Select(Partials(entries), request.props) && selected != []
    requires |vs| == |selected| && forall k :: 0 <= k < |vs| ==> run(selected[k], request.(params := bound)) == Fulfilled(vs[k])
    requires AllObjects(vs)
    requires p in request.props && !InSome(p, vs) && !Reflectable(p, bound)
    ensures MergeAll(vs).Obj? &&
            var missing := Missing(request.props, MergeAll(vs).fields, bound);
            && p in missing
            && Handle(routes, request, run, parseFloat, valid) == Response(selected, Failed(EmitterUnbound))
            && SettleIntended(selected, request.(params := bound), routes[i].schema, run, valid)
               == Failed(UnresolvedProps(UnresolvedMessage(missing, request.resourceId)))
  {
    HandleSettles(routes, request, run, parseFloat, valid, i, bound, Partials(entries));
    SettleUncovered(selected, request.(params := bound), routes[i].schema, run, valid, vs, p);
  }

  /** OPTIONS lists the verbs of a concatenation of handler keys as the two lists one after the other. */
  lemma {:induction false} VerbMethodsAppend(a: seq<(string, Handler)>, b: seq<(string, Handler)>)
    ensures VerbMethods(a + b) == VerbMethods(a) + VerbMethods(b)
  {
    if a != [] {
      assert (a + b)[0] == a[0];
      assert (a + b)[1..] == a[1..] + b;
      VerbMethodsAppend(a[1..], b);
      var head := if a[0].0 in Verbs then [ToUpper(a[0].0)] else [];
      assert VerbMethods(a) == head + VerbMethods(a[1..]);
      assert VerbMethods(a + b) == head + VerbMethods(a[1..] + b);
    } else {
      assert a + b == b;
    }
  }

  lemma {:induction false} VerbFirst(k: string, h: Handler, rest: seq<(string, Handler)>)
    requires k in Verbs
    ensures VerbMethods([(k, h)] + rest) == [ToUpper(k)] + VerbMethods(rest)
  {
    assert ([(k, h)] + rest)[1..] == rest;
  }

  lemma {:induction false} VerbsListed()
    ensures "get" in Verbs && "post" in Verbs && "put" in Verbs && "patch" in Verbs && "delete" in Verbs
  {
    assert Verbs[0] == "get" && Verbs[1] == "post" && Verbs[2] == "put" && Verbs[3] == "patch" && Verbs[4] == "delete";
  }

  lemma {:induction false} VerbsUpperCased()
    ensures ToUpper("get") == "GET" && ToUpper("post") == "POST" && ToUpper("put") == "PUT"
    ensures ToUpper("patch") == "PATCH" && ToUpper("delete") == "DELETE"
  {
  }

  /**
   * OPTIONS lists the methods in the order the handler keys were written, not in a fixed
   * order: `{ post, get, patch, delete, put }` gives POST first.
   */
  lemma {:induction false} OptionsFollowKeyOrder(h: Handler)
    ensures Methods([("post", h), ("get", h), ("patch", h), ("delete", h), ("put", h)])
         == ["POST", "GET", "PATCH", "DELETE", "PUT", "OPTIONS"]
    ensures Methods([("get", h)]) == ["GET", "OPTIONS"]
  {
    var t0 := [("post", h), ("get", h), ("patch", h), ("delete", h), ("put", h)];
    FiveVerbs(h);
    GetOnly(h);
  }

  lemma {:induction false} GetOnly(h: Handler)
    ensures VerbMethods([("get", h)]) == ["GET"]
  {
    VerbsListed();
    VerbsUpperCased();
    VerbFirst("get", h, []);
    assert [("get", h)] + [] == [("get", h)];
  }

  lemma {:induction false} FiveVerbs(h: Handler)
    ensures VerbMethods([("post", h), ("get", h), ("patch", h), ("delete", h), ("put", h)])
         == ["POST", "GET", "PATCH", "DELETE", "PUT"]
  {
    var hs := [("post", h), ("get", h), ("patch", h), ("delete", h), ("put", h)];
    var expected := ["POST", "GET", "PATCH", "DELETE", "PUT"];
    assert forall i :: 0 <= i < |hs| ==> hs[i].0 in Verbs && ToUpper(hs[i].0) == expected[i] by {
      VerbsListed();
      VerbsUpperCased();
    }
    ListedAsExpected(hs, expected);
  }

  lemma {:induction false} ListedAsExpected(hs: seq<(string, Handler)>, expected: seq<string>)
    requires |hs| == |expected|
    requires forall i :: 0 <= i < |hs| ==> hs[i].0 in Verbs && ToUpper(hs[i].0) == expected[i]
    ensures VerbMethods(hs) == expected
  {
    AllVerbsListed(hs);
  }

  /** When every key is a verb, OPTIONS lists every key upper-cased, in key order. */
  lemma {:induction false} AllVerbsListed(hs: seq<(string, Handler)>)
    requires forall i :: 0 <= i < |hs| ==> hs[i].0 in Verbs
    ensures |VerbMethods(hs)| == |hs|
    ensures forall i :: 0 <= i < |hs| ==> VerbMethods(hs)[i] == ToUpper(hs[i].0)
  {
    if hs != [] {
      var tail := hs[1..];
      assert forall i :: 0 <= i < |tail| ==> tail[i] == hs[i + 1];
      AllVerbsListed(tail);
      assert hs == [(hs[0].0, hs[0].1)] + tail;
      VerbFirst(hs[0].0, hs[0].1, tail);
      var r := VerbMethods(hs);
      forall i | 0 <= i < |hs| ensures r[i] == ToUpper(hs[i].0) {
        if i > 0 {
          assert r[i] == VerbMethods(tail)[i - 1];
        }
      }
    }
  }

  lemma {:induction false} ParseIntOf123()
    ensures ParseInt("123") == Finite(123.0)
  {
    assert DecimalString(123) == "123" by {
      assert Numeral(123) == Numeral(12) + [DigitChar(3)];
      assert Numeral(12) == Numeral(1) + [DigitChar(2)];
    }
    ParseIntRoundTrip(123);
  }

  function FooSchema(): Schema {
    Schema(Some("object"), None, Declared([
      Property("fooId", Schema(Some("integer"), None, NoProperties, None)),
      Property("barId", Schema(Some("string"), None, NoProperties, None))]), None)
  }

  lemma {:induction false} FooSchemaLookups(parseFloat: string -> JsNumber)
    ensures Coerce(FooSchema().properties.list, "fooId", Some("123"), parseFloat) == PNum(Finite(123.0))
    ensures Coerce(FooSchema().properties.list, "barId", Some("abc"), parseFloat) == PStr("abc")
  {
    FooIdCoerced(parseFloat);
    BarIdCoerced(parseFloat);
  }

  lemma {:induction false} FooIdCoerced(parseFloat: string -> JsNumber)
    ensures Coerce(FooSchema().properties.list, "fooId", Some("123"), parseFloat) == PNum(Finite(123.0))
  {
    FooIdIsInteger();
    ParseIntOf123();
  }

  lemma {:induction false} BarIdCoerced(parseFloat: string -> JsNumber)
    ensures Coerce(FooSchema().properties.list, "barId", Some("abc"), parseFloat) == PStr("abc")
  {
    BarIdIsString();
  }

  lemma {:induction false} FooIdIsInteger()
    ensures Lookup(FooSchema().properties.list, "fooId") == Some(Schema(Some("integer"), None, NoProperties, None))
  {
  }

  lemma {:induction false} BarIdIsString()
    ensures Lookup(FooSchema().properties.list, "barId") == Some(Schema(Some("string"), None, NoProperties, None))
  {
    var ps := FooSchema().properties.list;
    assert ps[1..] == [ps[1]];
  }

  /**
   * `/foo/:fooId/:barId` against `/foo/123/abc`, where the schema types `fooId` as an
   * integer and `barId` as a string, binds the number 123 and the string `abc`.
   */
  lemma {:induction false} BindingCoercesIntegers(parseFloat: string -> JsNumber)
    ensures BindParams(["fooId", "barId"], [Some("123"), Some("abc")], FooSchema(), map[], parseFloat)
         == Success(map["fooId" := PNum(Finite(123.0)), "barId" := PStr("abc")])
  {
    FooBinding(parseFloat);
    var b := BindParams(["fooId", "barId"], [Some("123"), Some("abc")], FooSchema(), map[], parseFloat).value;
    assert b == map["fooId" := PNum(Finite(123.0)), "barId" := PStr("abc")];
  }

  lemma {:induction false} FooBinding(parseFloat: string -> JsNumber)
    ensures var r := BindParams(["fooId", "barId"], [Some("123"), Some("abc")], FooSchema(), map[], parseFloat);
            && r.Success?
            && r.value.Keys == {"fooId", "barId"}
            && r.value["fooId"] == PNum(Finite(123.0))
            && r.value["barId"] == PStr("abc")
  {
    BindTwo("fooId", "barId", Some("123"), Some("abc"), FooSchema(), parseFloat);
    FooSchemaLookups(parseFloat);
  }

  /** A pattern with two distinct parameters binds exactly those two, each coerced. */
  lemma {:induction false} BindTwo(k0: string, k1: string, c0: Option<string>, c1: Option<string>, schema: Schema,
                                   parseFloat: string -> JsNumber)
    requires k0 != k1 && schema.properties.Declared?
    ensures var r := BindParams([k0, k1], [c0, c1], schema, map[], parseFloat);
            && r.Success?
            && r.value.Keys == {k0, k1}
            && r.value[k0] == Coerce(schema.properties.list, k0, c0, parseFloat)
            && r.value[k1] == Coerce(schema.properties.list, k1, c1, parseFloat)
  {
    var keys := [k0, k1];
    var caps := [c0, c1];
    var r := BindParams(keys, caps, schema, map[], parseFloat);
    assert forall n :: n in r.value <==> n == keys[0] || n == keys[1];
    assert LastOccurrence(keys, 0) && LastOccurrence(keys, 1);
    assert Capture(caps, 0) == c0 && Capture(caps, 1) == c1;
  }

  /**
   * A requested prop the handlers did not produce is taken from a truthy parameter of the
   * same name; `$` fields survive the projection and unrequested fields are dropped.
   */
  lemma {:induction false} ProjectionBackfills(meta: string, extra: string, p: string, v: Value, w: Value,
                                               params: map<string, Param>, resourceId: string)
    requires IsMeta(meta) && !IsMeta(extra) && !IsMeta(p)
    requires extra != p && Reflectable(p, params)
    ensures Project(Obj(map[meta := v, extra := w]), [p], params, resourceId)
         == Success(Obj(map[meta := v, p := ParamValue(params[p])]))
  {
    var merged := map[meta := v, extra := w];
    var r := Project(Obj(merged), [p], params, resourceId);
    assert r.Success? by {
      assert [p][1..] == [];
      assert Missing([p], merged, params) == [];
    }
    var f := r.value.fields;
    assert f.Keys == {meta, p} by {
      assert meta in f && p in f && extra !in f;
    }
    assert f == map[meta := v, p := ParamValue(params[p])];
  }

  /** A falsy parameter does not count: every unresolved prop is named, in request order. */
  lemma {:induction false} ProjectionNamesUnresolved(a: string, b: string, params: map<string, Param>, resourceId: string)
    requires !Reflectable(a, params) && !Reflectable(b, params)
    ensures Project(Obj(map[]), [a, b], params, resourceId)
         == Failure("Unable to resolve props " + a + ", " + b + " for resource " + resourceId)
  {
    assert Missing([a, b], map[], params) == [a, b] by {
      assert [b][0] == b && [b][1..] == [];
      assert Missing([b], map[], params) == [b] + Missing([], map[], params);
      assert [a, b][0] == a && [a, b][1..] == [b];
    }
    assert Join([a, b], ", ") == a + ", " + b by {
      assert [a, b][0] == a && [a, b][1..] == [b];
      assert Join([b], ", ") == b;
    }
    var r := Project(Obj(map[]), [a, b], params, resourceId);
    assert r == Failure(UnresolvedMessage([a, b], resourceId));
    var lead := "Unable to resolve props ";
    assert lead + (a + ", " + b) == lead + (a + ", ") + b;
    assert lead + (a + ", ") == lead + a + ", ";
    assert UnresolvedMessage([a, b], resourceId) == lead + a + ", " + b + " for resource " + resourceId;
  }

  /** The handler of the request example: it echoes the two bound parameters. */
  function EchoIds(c: Callback, request: Request): Settled {
    Fulfilled(Obj(map[
      "fooId" := if "fooId" in request.params then ParamValue(request.params["fooId"]) else Null,
      "barId" := if "barId" in request.params then ParamValue(request.params["barId"]) else Null]))
  }

  /**
   * A route with one whole-resource handler for the method resolves, when no props are
   * requested, with exactly what that handler returns, provided it validates, unless that
   * is an array holding `null`, whose duck-typed `toRepresentation` read throws.
   */
  lemma {:induction false} HandleSingleHandler(routes: seq<Route>, request: Request, run: (Callback, Request) -> Settled,
                            parseFloat: string -> JsNumber, valid: (Schema, Value) -> bool,
                            i: nat, bound: map<string, Param>, c: Callback, v: Value)
    requires FirstMatch(routes, request.resourceId) == Some(i)
    requires BindParams(routes[i].compiled.keys, routes[i].compiled.matcher[request.resourceId],
                        routes[i].schema, request.params, parseFloat) == Success(bound)
    requires ToLower(request.verb) != "options"
    requires HandlerFor(routes[i].handlers, ToLower(request.verb)) == Some(Whole(c))
    requires request.props == []
    requires run(c, request.(params := bound)) == Fulfilled(v) && valid(routes[i].schema, v)
    ensures Handle(routes, request, run, parseFloat, valid)
              == Response([c], if v.Arr? && Null in v.items then Failed(NullItem) else Done(v))
  {
    var bound' := request.(params := bound);
    assert Gather([c], bound', run) == Success([v]) by {
      assert [c][0] == c && [c][1..] == [];
      assert Gather([], bound', run) == Success([]);
      assert [v] + [] == [v];
    }
    assert Select(Whole(c), request.props) == [c];
    assert HasNullItem([v]) <==> v.Arr? && Null in v.items by {
      assert [v][0] == v;
    }
    assert MergeAll([v]) == v;
    assert Project(v, bound'.props, bound'.params, bound'.resourceId) == Success(v);
  }

  /**
   * `GET /foo/123/abc` against `/foo/:fooId/:barId` calls the one handler with `fooId`
   * bound to the number 123 and `barId` to the string `abc`, and resolves with what it
   * returns.
   */
  lemma {:induction false} HandleExtractsParams(parseFloat: string -> JsNumber, matcher: imap<string, Captures>)
    requires "/foo/123/abc" in matcher && matcher["/foo/123/abc"] == [Some("123"), Some("abc")]
    ensures Handle([FooRoute(matcher)], Request("/foo/123/abc", "GET", map[], []), EchoIds, parseFloat, (s, v) => true)
              == Response([0], Done(Obj(map["fooId" := Num(Finite(123.0)), "barId" := Str("abc")])))
  {
    var request := Request("/foo/123/abc", "GET", map[], []);
    var bound := map["fooId" := PNum(Finite(123.0)), "barId" := PStr("abc")];
    var result := Obj(map["fooId" := Num(Finite(123.0)), "barId" := Str("abc")]);
    FooRouteFacts(parseFloat, matcher);
    EchoFoo(request, bound, result);
    HandleSingleHandler([FooRoute(matcher)], request, EchoIds, parseFloat, (s, v) => true, 0, bound, 0, result);
  }

  lemma {:induction false} EchoFoo(request: Request, bound: map<string, Param>, result: Value)
    requires bound == map["fooId" := PNum(Finite(123.0)), "barId" := PStr("abc")]
    requires result == Obj(map["fooId" := Num(Finite(123.0)), "barId" := Str("abc")])
    ensures EchoIds(0, request.(params := bound)) == Fulfilled(result)
  {
  }

  /** The route `/foo/:fooId/:barId` with one `get` handler. */
  function FooRoute(matcher: imap<string, Captures>): Route {
    Route("/foo/:fooId/:barId", FooSchema(), [("get", Whole(0))], Compiled(["fooId", "barId"], matcher))
  }

  lemma {:induction false} FooRouteFacts(parseFloat: string -> JsNumber, matcher: imap<string, Captures>)
    requires "/foo/123/abc" in matcher && matcher["/foo/123/abc"] == [Some("123"), Some("abc")]
    ensures FirstMatch([FooRoute(matcher)], "/foo/123/abc") == Some(0)
    ensures BindParams(["fooId", "barId"], matcher["/foo/123/abc"], FooSchema(), map[], parseFloat)
         == Success(map["fooId" := PNum(Finite(123.0)), "barId" := PStr("abc")])
    ensures ToLower("GET") == "get" && HandlerFor(FooRoute(matcher).handlers, "get") == Some(Whole(0))
  {
    BindingCoercesIntegers(parseFloat);
    LowerGet();
    FooRouteGet(matcher);
  }

  lemma {:induction false} LowerGet()
    ensures ToLower("GET") == "get"
  {
  }

  lemma {:induction false} FooRouteGet(matcher: imap<string, Captures>)
    ensures HandlerFor(FooRoute(matcher).handlers, "get") == Some(Whole(0))
  {
    assert FooRoute(matcher).handlers[0].0 == "get";
  }
}

=== FILE: schema.dfy ===
/** The schema tree a route is registered with, as far as the two cores read it. */
module Schemas {
  import opened Wrappers

  /**
   * A `scopes` annotation: the key sets of its optional `read` and `write` maps
   * (scope name -> description; only the names matter to the core).
   */
  datatype ScopeAnnotation = ScopeAnnotation(read: Option<set<string>>, write: Option<set<string>>)

  /**
   * One schema node. `kind` is the `type` keyword (absent when the node has none);
   * `items` is the element schema of an array.
   */
  datatype Schema = Schema(
    kind: Option<string>,
    scopes: Option<ScopeAnnotation>,
    properties: Properties,
    items: Option<Schema>)

  /** The `properties` keyword, listed in the order `Object.keys` enumerates it. */
  datatype Properties = NoProperties | Declared(list: seq<Property>)

  datatype Property = Property(name: string, schema: Schema)

  /** Neither `object` nor `array`: the traversal stops here. */
  predicate IsLeaf(s: Schema) {
    s.kind != Some("object") && s.kind != Some("array")
  }

  function PropertyCount(s: Schema): nat {
    if s.properties.Declared? then |s.properties.list| else 0
  }

  /** `properties[name]` of a JavaScript object: the property of that name, if any. */
  function Lookup(ps: seq<Property>, name: string): (r: Option<Schema>)
    ensures r.Some? <==> exists i :: 0 <= i < |ps| && ps[i].name == name
    ensures r.Some? ==> exists i :: 0 <= i < |ps| && ps[i].name == name && r.value == ps[i].schema
  {
    if ps == [] then None
    else if ps[0].name == name then Some(ps[0].schema)
    else Lookup(ps[1..], name)
  }

  predicate DistinctNames(ps: seq<Property>) {
    forall i, j :: 0 <= i < j < |ps| ==> ps[i].name != ps[j].name
  }

  /** Every object in the tree has distinct property names, as a JavaScript object must. */
  predicate WellFormed(s: Schema) {
    && (s.properties.Declared? ==>
          && DistinctNames(s.properties.list)
          && forall p :: p in s.properties.list ==> WellFormed(p.schema))
    && (s.items.Some? ==> WellFormed(s.items.value))
  }

  /** In a well-formed object, looking up a property's own name finds that property. */
  lemma {:induction false} LookupDistinct(ps: seq<Property>, i: nat)
    requires DistinctNames(ps) && i < |ps|
    ensures Lookup(ps, ps[i].name) == Some(ps[i].schema)
  {
    if i > 0 {
      assert DistinctNames(ps[1..]) by {
        forall a, b | 0 <= a < b < |ps[1..]| ensures ps[1..][a].name != ps[1..][b].name {
          assert ps[1..][a] == ps[a + 1] && ps[1..][b] == ps[b + 1];
        }
      }
      LookupDistinct(ps[1..], i - 1);
    }
  }
}

=== FILE: schema_scopes.dfy ===
/**
 * The schema scope index: every leaf field of a schema with the read and write scopes
 * it inherits from the `scopes` annotations above it, and the two access checks
 * (`canAccessResource`, `filterProps`) built on it.
 */
module SchemaScopes {
  import opened Wrappers
  import opened Schemas
  import opened Sequences
  import Strings

  /** The `{read: Set, write: Set}` pair stored for one field. */
  datatype Scopes = Scopes(read: set<string>, write: set<string>)

  /** One `{prefix, scopes}` entry; `prefix` is `undefined` for a leaf reached without any key. */
  datatype FieldScope = FieldScope(prefix: Option<string>, scopes: Scopes)

  /** What `_scopesPerProp` returns: a single object at a leaf, an array otherwise. */
  datatype PerProp = One(entry: FieldScope) | Many(entries: seq<FieldScope>)

  /** What `transformSchema` returns, carried over from `_scopesPerProp` at the root. */
  datatype Index = Single(entry: FieldScope) | Entries(entries: seq<FieldScope>)

  /** `TypeError` is JavaScript's, thrown when the root-leaf index is used as an array. */
  datatype ScopeError = TypeError | NotFound(message: string)

  /** `result.concat(items)`: a single object is appended, an array is spread. */
  function Flatten(p: PerProp): seq<FieldScope> {
    match p
    case One(e) => [e]
    case Many(es) => es
  }

  /** The node's own annotation, as `scopes.concat([prop.scopes])` adds it. */
  function Own(s: Schema): seq<ScopeAnnotation> {
    if s.scopes.Some? then [s.scopes.value] else []
  }

  function ReadOf(a: ScopeAnnotation): set<string> {
    if a.read.Some? then a.read.value else {}
  }

  function WriteOf(a: ScopeAnnotation): set<string> {
    if a.write.Some? then a.write.value else {}
  }

  /** The union of the `read` key sets of a list of annotations. */
  function ReadKeys(anns: seq<ScopeAnnotation>): (r: set<string>)
    ensures forall x :: x in r <==> exists i :: 0 <= i < |anns| && x in ReadOf(anns[i])
  {
    if anns == [] then {}
    else
      var r := ReadOf(anns[0]) + ReadKeys(anns[1..]);
      assert forall i :: 0 < i < |anns| ==> anns[i] == anns[1..][i - 1];
      r
  }

  /** The union of the `write` key sets of a list of annotations. */
  function WriteKeys(anns: seq<ScopeAnnotation>): (r: set<string>)
    ensures forall x :: x in r <==> exists i :: 0 <= i < |anns| && x in WriteOf(anns[i])
  {
    if anns == [] then {}
    else
      var r := WriteOf(anns[0]) + WriteKeys(anns[1..]);
      assert forall i :: 0 < i < |anns| ==> anns[i] == anns[1..][i - 1];
      r
  }

  /** Concatenating annotation lists unions their key sets. */
  lemma {:induction false} KeysOfConcat(a: seq<ScopeAnnotation>, b: seq<ScopeAnnotation>)
    ensures ReadKeys(a + b) == ReadKeys(a) + ReadKeys(b)
    ensures WriteKeys(a + b) == WriteKeys(a) + WriteKeys(b)
  {
    forall x | x in ReadKeys(a + b) ensures x in ReadKeys(a) + ReadKeys(b) {
      var i :| 0 <= i < |a + b| && x in ReadOf((a + b)[i]);
      if i >= |a| { assert (a + b)[i] == b[i - |a|]; } else { assert (a + b)[i] == a[i]; }
    }
    forall x | x in ReadKeys(a) ensures x in ReadKeys(a + b) {
      var i :| 0 <= i < |a| && x in ReadOf(a[i]);
      assert (a + b)[i] == a[i];
    }
    forall x | x in ReadKeys(b) ensures x in ReadKeys(a + b) {
      var i :| 0 <= i < |b| && x in ReadOf(b[i]);
      assert (a + b)[i + |a|] == b[i];
    }
    forall x | x in WriteKeys(a + b) ensures x in WriteKeys(a) + WriteKeys(b) {
      var i :| 0 <= i < |a + b| && x in WriteOf((a + b)[i]);
      if i >= |a| { assert (a + b)[i] == b[i - |a|]; } else { assert (a + b)[i] == a[i]; }
    }
    forall x | x in WriteKeys(a) ensures x in WriteKeys(a + b) {
      var i :| 0 <= i < |a| && x in WriteOf(a[i]);
      assert (a + b)[i] == a[i];
    }
    forall x | x in WriteKeys(b) ensures x in WriteKeys(a + b) {
      var i :| 0 <= i < |b| && x in WriteOf(b[i]);
      assert (a + b)[i + |a|] == b[i];
    }
  }

  /** The key of a property under `prefix`: the bare key at the root, `prefix + separator + key` below. */
  function JoinPrefix(prefix: Option<string>, separator: string, key: string): string {
    if prefix.Some? then prefix.value + separator + key else key
  }

  /**
   * `_scopesPerProp(prop, scopes, prefix, separator)`: depth-first over the tree, carrying
   * the annotations seen so far; one entry per leaf. Every entry inherits at least the
   * scopes carried in plus the node's own, and lies under the prefix it was given.
   */
  function ScopesPerProp(prop: Schema, scopes: seq<ScopeAnnotation>, prefix: Option<string>, separator: string): (r: PerProp)
    decreases prop, PropertyCount(prop) + 1
    ensures r.One? <==> IsLeaf(prop)
    ensures r.One? ==> r.entry.prefix == prefix
    ensures AllInherit(Flatten(r), ReadKeys(scopes + Own(prop)), WriteKeys(scopes + Own(prop)))
    ensures prefix.Some? ==> AllUnder(Flatten(r), prefix.value)
  {
    var acc := scopes + Own(prop);
    if IsLeaf(prop) then
      One(FieldScope(prefix, Scopes(ReadKeys(acc), WriteKeys(acc))))
    else if prop.kind == Some("object") then
      Many(if prop.properties.Declared? then PropertiesScopes(prop, 0, acc, prefix, separator) else [])
    else if prop.items.Some? then
      var child := prop.items.value;
      var es := Flatten(ScopesPerProp(child, acc, prefix, "@"));
      KeysOfConcat(acc, Own(child));
      InheritWeaker(es, ReadKeys(acc + Own(child)), WriteKeys(acc + Own(child)), ReadKeys(acc), WriteKeys(acc));
      Many(es)
    else
      Many([])
  }

  /** Every entry requires at least `read` and `write`. */
  predicate AllInherit(es: seq<FieldScope>, read: set<string>, write: set<string>) {
    forall e :: e in es ==> read <= e.scopes.read && write <= e.scopes.write
  }

  /** Every entry has a path that extends `p`. */
  predicate AllUnder(es: seq<FieldScope>, p: string) {
    forall e :: e in es ==> e.prefix.Some? && Strings.IsPrefix(p, e.prefix.value)
  }

  lemma {:induction false} InheritWeaker(es: seq<FieldScope>, read: set<string>, write: set<string>, read': set<string>, write': set<string>)
    requires AllInherit(es, read, write) && read' <= read && write' <= write
    ensures AllInherit(es, read', write')
  {
  }

  /** The loop over `Object.keys(prop.properties)` from the `i`-th key on, concatenating each key's entries. */
  function PropertiesScopes(s: Schema, i: nat, acc: seq<ScopeAnnotation>, prefix: Option<string>, separator: string): (r: seq<FieldScope>)
    requires s.properties.Declared? && i <= |s.properties.list|
    decreases s, |s.properties.list| - i
    ensures AllInherit(r, ReadKeys(acc), WriteKeys(acc))
    ensures prefix.Some? ==> AllUnder(r, prefix.value)
  {
    var ps := s.properties.list;
    if i == |ps| then []
    else
      assert ps[i] in ps;
      var key := JoinPrefix(prefix, separator, ps[i].name);
      var here := Flatten(ScopesPerProp(ps[i].schema, acc, Some(key), "."));
      KeysOfConcat(acc, Own(ps[i].schema));
      InheritWeaker(here, ReadKeys(acc + Own(ps[i].schema)), WriteKeys(acc + Own(ps[i].schema)), ReadKeys(acc), WriteKeys(acc));
      PrefixesUnderKey(prefix, separator, ps[i].name, here);
      here + PropertiesScopes(s, i + 1, acc, prefix, separator)
  }

  lemma {:induction false} PrefixesUnderKey(prefix: Option<string>, separator: string, name: string, es: seq<FieldScope>)
    requires AllUnder(es, JoinPrefix(prefix, separator, name))
    ensures prefix.Some? ==> AllUnder(es, prefix.value)
  {
    if prefix.Some? {
      var key := JoinPrefix(prefix, separator, name);
      assert key[..|prefix.value|] == prefix.value;
      forall e | e in es ensures Strings.IsPrefix(prefix.value, e.prefix.value) {
        PrefixTransitive(prefix.value, key, e.prefix.value);
      }
    }
  }

  lemma {:induction false} PrefixTransitive(p: string, q: string, s: string)
    requires Strings.IsPrefix(p, q) && Strings.IsPrefix(q, s)
    ensures Strings.IsPrefix(p, s)
  {
    assert s[..|p|] == s[..|q|][..|p|];
  }

  /** `transformSchema(schema)`: the index of a whole schema, rooted without a prefix. */
  function TransformSchema(schema: Schema): (r: Index)
    ensures r.Single? <==> IsLeaf(schema)
    ensures r.Single? ==> r.entry.prefix == None
    ensures r.Entries? ==> forall e :: e in r.entries ==>
              ReadKeys(Own(schema)) <= e.scopes.read && WriteKeys(Own(schema)) <= e.scopes.write
  {
    assert [] + Own(schema) == Own(schema);
    match ScopesPerProp(schema, [], None, ".")
    case One(e) => Single(e)
    case Many(es) => Entries(es)
  }

  /**
   * `field(name)`: the scopes of the first entry whose prefix is `name`; throws
   * "`name` not found" when there is none. On the root-leaf index, which is a plain
   * object rather than an array, the `for...of` throws a TypeError.
   */
  method Field(index: Index, name: string) returns (r: Result<Scopes, ScopeError>)
    ensures index.Single? ==> r == Failure(TypeError)
    ensures index.Entries? ==>
              (r.Success? <==> exists i :: 0 <= i < |index.entries| && index.entries[i].prefix == Some(name))
    ensures index.Entries? && r.Success? ==>
              exists i :: 0 <= i < |index.entries| && index.entries[i].prefix == Some(name)
                && r.value == index.entries[i].scopes
                && forall j :: 0 <= j < i ==> index.entries[j].prefix != Some(name)
    ensures index.Entries? && r.Failure? ==> r.error == NotFound(name + " not found")
  {
    if index.Single? {
      return Failure(TypeError);
    }
    var es := index.entries;
    var i := 0;
    while i < |es|
      invariant 0 <= i <= |es|
      invariant forall j :: 0 <= j < i ==> es[j].prefix != Some(name)
    {
      if es[i].prefix == Some(name) {
        return Success(es[i].scopes);
      }
      i := i + 1;
    }
    return Failure(NotFound(name + " not found"));
  }

  /**
   * `canAccessResource(scopes)`: true iff the root declares `scopes.read` and one of the
   * granted scopes is a key of it. There is no public case: no root read scopes means false.
   */
  method CanAccessResource(schema: Schema, granted: seq<string>) returns (ok: bool)
    ensures ok <==>
              schema.scopes.Some? && schema.scopes.value.read.Some?
              && exists i :: 0 <= i < |granted| && granted[i] in schema.scopes.value.read.value
  {
    if schema.scopes.Some? && schema.scopes.value.read.Some? {
      var read := schema.scopes.value.read.value;
      var i := 0;
      while i < |granted|
        invariant 0 <= i <= |granted|
        invariant forall j :: 0 <= j < i ==> granted[j] !in read
      {
        if granted[i] in read {
          return true;
        }
        i := i + 1;
      }
    }
    return false;
  }

  /** `scopes.filter(y => read.has(y)).length`: granted entries, duplicates included, that the field requires. */
  function CountGranted(granted: seq<string>, read: set<string>): (n: nat)
    ensures n <= |granted|
    ensures n == 0 <==> forall i :: 0 <= i < |granted| ==> granted[i] !in read
  {
    if granted == [] then 0
    else
      assert forall i :: 0 < i < |granted| ==> granted[i] == granted[1..][i - 1];
      (if granted[0] in read then 1 else 0) + CountGranted(granted[1..], read)
  }

  /** The filter of `filterProps` as written: no scopes required, or the count of granted ones equals the size. */
  predicate CountAllows(read: set<string>, granted: seq<string>) {
    |read| == 0 || CountGranted(granted, read) == |read|
  }

  /** The containment the count stands in for: every required scope is granted. */
  predicate SubsetAllows(read: set<string>, granted: seq<string>) {
    forall x :: x in read ==> x in granted
  }

  /**
   * The prefixes of the entries at or after `from` that a filter admits: one per admitted
   * entry, in index order.
   */
  function AllowedPaths(es: seq<FieldScope>, granted: seq<string>, asWritten: bool, from: nat): (r: seq<Option<string>>)
    requires from <= |es|
    decreases |es| - from
    ensures var idx := IndicesWhere(es, AdmitsEntry(granted, asWritten), from);
            |r| == |idx| && forall k :: 0 <= k < |r| ==> r[k] == es[idx[k]].prefix
    ensures forall p :: p in r <==>
              exists i :: from <= i < |es| && es[i].prefix == p && Admits(es[i].scopes.read, granted, asWritten)
  {
    if from == |es| then []
    else
      var rest := AllowedPaths(es, granted, asWritten, from + 1);
      if Admits(es[from].scopes.read, granted, asWritten) then [es[from].prefix] + rest else rest
  }

  /** The filter's test as a predicate on entries. */
  function AdmitsEntry(granted: seq<string>, asWritten: bool): FieldScope -> bool {
    (e: FieldScope) => Admits(e.scopes.read, granted, asWritten)
  }

  predicate Admits(read: set<string>, granted: seq<string>, asWritten: bool) {
    if asWritten then CountAllows(read, granted) else SubsetAllows(read, granted)
  }

  /**
   * `requestedProps.filter(r => allowed.indexOf(r) > -1)`: the requested names that are
   * allowed, in the request's order and with its duplicates.
   */
  function SelectRequested(requested: seq<string>, allowed: seq<Option<string>>): (r: seq<string>)
    ensures forall x :: x in r <==> x in requested && Some(x) in allowed
    ensures forall x :: multiset(r)[x] == (if Some(x) in allowed then multiset(requested)[x] else 0)
    ensures SubsequenceOf(r, requested)
  {
    if requested == [] then []
    else
      var rest := SelectRequested(requested[1..], allowed);
      assert requested == [requested[0]] + requested[1..];
      assert multiset(requested) == multiset{requested[0]} + multiset(requested[1..]);
      if Some(requested[0]) in allowed then
        var r := [requested[0]] + rest;
        assert r[1..] == rest;
        assert multiset(r) == multiset{requested[0]} + multiset(rest);
        SubsequenceKeepsHead(rest, requested);
        r
      else
        SubsequenceDropsHead(rest, requested);
        rest
  }

  function WrapAll(xs: seq<string>): (r: seq<Option<string>>)
    ensures |r| == |xs| && forall i :: 0 <= i < |xs| ==> r[i] == Some(xs[i])
  {
    seq(|xs|, i requires 0 <= i < |xs| => Some(xs[i]))
  }

  lemma {:induction false} WrapAllSubsequence(a: seq<string>, b: seq<string>)
    requires SubsequenceOf(a, b)
    ensures SubsequenceOf(WrapAll(a), WrapAll(b))
    decreases |b|
  {
    if a != [] {
      assert WrapAll(a)[1..] == WrapAll(a[1..]);
      assert WrapAll(b)[1..] == WrapAll(b[1..]);
      if a[0] == b[0] && SubsequenceOf(a[1..], b[1..]) {
        WrapAllSubsequence(a[1..], b[1..]);
      } else {
        WrapAllSubsequence(a, b[1..]);
      }
    }
  }

  lemma {:induction false} WrapAllCount(xs: seq<string>, x: string)
    ensures multiset(WrapAll(xs))[Some(x)] == multiset(xs)[x]
  {
    if xs != [] {
      assert xs == [xs[0]] + xs[1..];
      assert WrapAll(xs) == [Some(xs[0])] + WrapAll(xs[1..]);
      WrapAllCount(xs[1..], x);
    }
  }

  /**
   * `filterProps(requestedProps, scopes)` as written. The allowed paths are the prefixes of
   * the entries with no read scope, or whose read scopes are counted in full among the
   * granted list. With no request every allowed path is returned in index order; otherwise
   * the request is filtered down to allowed paths. On the root-leaf index `.filter` is
   * missing and the call throws.
   */
  function FilterProps(index: Index, requested: seq<string>, granted: seq<string>): (r: Result<seq<Option<string>>, ScopeError>)
    ensures index.Single? <==> r.Failure?
    ensures r.Failure? ==> r.error == TypeError
    ensures index.Entries? && requested == [] ==>
              forall p :: p in r.value <==>
                exists i :: 0 <= i < |index.entries| && index.entries[i].prefix == p
                  && CountAllows(index.entries[i].scopes.read, granted)
    ensures index.Entries? && requested != [] ==>
              forall p :: p in r.value <==>
                p.Some? && p.value in requested
                && exists i :: 0 <= i < |index.entries| && index.entries[i].prefix == p
                     && CountAllows(index.entries[i].scopes.read, granted)
    ensures index.Entries? && requested == [] ==>
              var idx := IndicesWhere(index.entries, AdmitsEntry(granted, true), 0);
              |r.value| == |idx| && forall k :: 0 <= k < |idx| ==> r.value[k] == index.entries[idx[k]].prefix
    ensures index.Entries? && requested != [] ==>
              && SubsequenceOf(r.value, WrapAll(requested))
              && forall x :: Some(x) in r.value ==> multiset(r.value)[Some(x)] == multiset(requested)[x]
  {
    Filter(index, requested, granted, true)
  }

  /**
   * The evidently intended `filterProps`: a field is allowed when every scope it requires
   * is granted, whatever duplicates the granted list holds.
   */
  function FilterPropsIntended(index: Index, requested: seq<string>, granted: seq<string>): (r: Result<seq<Option<string>>, ScopeError>)
    ensures index.Single? <==> r.Failure?
    ensures index.Entries? && requested == [] ==>
              forall p :: p in r.value <==>
                exists i :: 0 <= i < |index.entries| && index.entries[i].prefix == p
                  && forall x :: x in index.entries[i].scopes.read ==> x in granted
    ensures index.Entries? && requested != [] ==>
              forall p :: p in r.value <==>
                p.Some? && p.value in requested
                && exists i :: 0 <= i < |index.entries| && index.entries[i].prefix == p
                     && forall x :: x in index.entries[i].scopes.read ==> x in granted
    ensures index.Entries? && requested == [] ==>
              var idx := IndicesWhere(index.entries, AdmitsEntry(granted, false), 0);
              |r.value| == |idx| && forall k :: 0 <= k < |idx| ==> r.value[k] == index.entries[idx[k]].prefix
    ensures index.Entries? && requested != [] ==>
              && SubsequenceOf(r.value, WrapAll(requested))
              && forall x :: Some(x) in r.value ==> multiset(r.value)[Some(x)] == multiset(requested)[x]
  {
    Filter(index, requested, granted, false)
  }

  function Filter(index: Index, requested: seq<string>, granted: seq<string>, asWritten: bool): (r: Result<seq<Option<string>>, ScopeError>)
    ensures index.Single? <==> r.Failure?
    ensures r.Failure? ==> r.error == TypeError
    ensures index.Entries? && requested == [] ==> r.value == AllowedPaths(index.entries, granted, asWritten, 0)
    ensures index.Entries? && requested != [] ==>
              r.value == WrapAll(SelectRequested(requested, AllowedPaths(index.entries, granted, asWritten, 0)))
    ensures index.Entries? && requested == [] ==>
              var idx := IndicesWhere(index.entries, AdmitsEntry(granted, asWritten), 0);
              |r.value| == |idx| && forall k :: 0 <= k < |idx| ==> r.value[k] == index.entries[idx[k]].prefix
    ensures index.Entries? && requested != [] ==>
              && SubsequenceOf(r.value, WrapAll(requested))
              && forall x :: Some(x) in r.value ==> multiset(r.value)[Some(x)] == multiset(requested)[x]
  {
    match index
    case Single(_) => Failure(TypeError)
    case Entries(es) =>
      var allowed := AllowedPaths(es, granted, asWritten, 0);
      if requested == [] then Success(allowed)
      else
        var kept := SelectRequested(requested, allowed);
        WrapAllSubsequence(kept, requested);
        forall x | Some(x) in WrapAll(kept) ensures multiset(WrapAll(kept))[Some(x)] == multiset(requested)[x] {
          WrapAllCount(kept, x);
        }
        Success(WrapAll(kept))
  }
}

=== FILE: schema_scopes_proofs.dfy ===
/**
 * What the schema scope index means, stated against an independent description of a
 * schema tree: the paths that lead from the root to its leaves, the annotations met on
 * the way, and the dotted/`@` rendering of such a path.
 */
module ScopeIndexProofs {
  import opened Wrappers
  import opened Schemas
  import opened SchemaScopes

  /** One step down the tree: into the property called `name`, or into an array's elements. */
  datatype Step = Key(name: string) | Element

  /** The node one step below `s`, if the step exists. */
  function Child(s: Schema, x: Step): Option<Schema> {
    match x
    case Key(k) => if s.properties.Declared? then Lookup(s.properties.list, k) else None
    case Element => s.items
  }

  /** The node reached by following `steps` from `s`. */
  function NodeAt(s: Schema, steps: seq<Step>): Option<Schema>
    decreases |steps|
  {
    if steps == [] then Some(s)
    else
      match Child(s, steps[0])
      case None => None
      case Some(c) => NodeAt(c, steps[1..])
  }

  /** The annotations of every node from `s` down along `steps`, root first, the last node included. */
  function Chain(s: Schema, steps: seq<Step>): seq<ScopeAnnotation>
    decreases |steps|
  {
    Own(s) + (if steps == [] then []
              else match Child(s, steps[0])
                   case None => []
                   case Some(c) => Chain(c, steps[1..]))
  }

  /**
   * `steps` leads from `s` to a leaf, descending only through objects (by key) and
   * arrays (into their items).
   */
  predicate ReachesLeaf(s: Schema, steps: seq<Step>)
    decreases |steps|
  {
    if steps == [] then IsLeaf(s)
    else
      && (if steps[0].Key? then s.kind == Some("object") else s.kind == Some("array"))
      && Child(s, steps[0]).Some?
      && ReachesLeaf(Child(s, steps[0]).value, steps[1..])
  }

  /** The separator that follows a path: `@` right after an array step, `.` otherwise. */
  function SepAfter(steps: seq<Step>): string {
    if steps != [] && steps[|steps| - 1] == Element then "@" else "."
  }

  /**
   * The field path of `steps`, built from the end: an array step adds nothing; a key is
   * appended to its parent's path with `SepAfter` (or stands alone when the parent has no path).
   */
  function RenderPath(steps: seq<Step>): Option<string>
    decreases |steps|
  {
    if steps == [] then None
    else
      var init := steps[..|steps| - 1];
      match steps[|steps| - 1]
      case Element => RenderPath(init)
      case Key(k) => Some(JoinPrefix(RenderPath(init), SepAfter(init), k))
  }

  function Prepend(x: Step, paths: seq<seq<Step>>): (r: seq<seq<Step>>)
    ensures |r| == |paths| && forall j :: 0 <= j < |paths| ==> r[j] == [x] + paths[j]
  {
    seq(|paths|, j requires 0 <= j < |paths| => [x] + paths[j])
  }

  /** The paths to the leaves of `s`, depth-first, properties in their listed order. */
  function LeafPaths(s: Schema): seq<seq<Step>>
    decreases s, PropertyCount(s) + 1
  {
    if IsLeaf(s) then [[]]
    else if s.kind == Some("object") then
      if s.properties.Declared? then PropertiesLeafPaths(s, 0) else []
    else if s.items.Some? then Prepend(Element, LeafPaths(s.items.value))
    else []
  }

  function PropertiesLeafPaths(s: Schema, i: nat): seq<seq<Step>>
    requires s.properties.Declared? && i <= |s.properties.list|
    decreases s, |s.properties.list| - i
  {
    var ps := s.properties.list;
    if i == |ps| then []
    else
      assert ps[i] in ps;
      Prepend(Key(ps[i].name), LeafPaths(ps[i].schema)) + PropertiesLeafPaths(s, i + 1)
  }

  // ---------------------------------------------------------------------------
  // The index is the list of leaves

  /** The prefix `_scopesPerProp` forms for `steps` when started at `prefix` with `separator`. */
  function Extend(prefix: Option<string>, separator: string, steps: seq<Step>): Option<string>
    decreases |steps|
  {
    if steps == [] then prefix
    else
      match steps[0]
      case Key(k) => Extend(Some(JoinPrefix(prefix, separator, k)), ".", steps[1..])
      case Element => Extend(prefix, "@", steps[1..])
  }

  function EntryFor(acc: seq<ScopeAnnotation>, prefix: Option<string>, separator: string, s: Schema, steps: seq<Step>): FieldScope {
    var chain := acc + Chain(s, steps);
    FieldScope(Extend(prefix, separator, steps), Scopes(ReadKeys(chain), WriteKeys(chain)))
  }

  function MapEntries(acc: seq<ScopeAnnotation>, prefix: Option<string>, separator: string, s: Schema, paths: seq<seq<Step>>): (r: seq<FieldScope>)
    ensures |r| == |paths|
  {
    seq(|paths|, j requires 0 <= j < |paths| => EntryFor(acc, prefix, separator, s, paths[j]))
  }

  /** One step down a key: the entry of `[Key(k)] + t` below `s` is the entry of `t` below the property. */
  lemma {:induction false} StepDownKey(acc: seq<ScopeAnnotation>, prefix: Option<string>, separator: string, s: Schema,
                                       k: string, c: Schema, paths: seq<seq<Step>>)
    requires Child(s, Key(k)) == Some(c)
    ensures MapEntries(acc, prefix, separator, s, Prepend(Key(k), paths))
         == MapEntries(acc + Own(s), Some(JoinPrefix(prefix, separator, k)), ".", c, paths)
  {
    forall j | 0 <= j < |paths|
      ensures EntryFor(acc, prefix, separator, s, [Key(k)] + paths[j])
           == EntryFor(acc + Own(s), Some(JoinPrefix(prefix, separator, k)), ".", c, paths[j])
    {
      EntryDownKey(acc, prefix, separator, s, k, c, paths[j]);
    }
  }

  lemma {:induction false} EntryDownKey(acc: seq<ScopeAnnotation>, prefix: Option<string>, separator: string, s: Schema,
                                        k: string, c: Schema, p: seq<Step>)
    requires Child(s, Key(k)) == Some(c)
    ensures EntryFor(acc, prefix, separator, s, [Key(k)] + p)
         == EntryFor(acc + Own(s), Some(JoinPrefix(prefix, separator, k)), ".", c, p)
  {
    var t := [Key(k)] + p;
    assert t[0] == Key(k) && t[1..] == p;
    assert Extend(prefix, separator, t) == Extend(Some(JoinPrefix(prefix, separator, k)), ".", p);
    assert Chain(s, t) == Own(s) + Chain(c, p);
    assert acc + Chain(s, t) == (acc + Own(s)) + Chain(c, p);
  }

  /** One step into array items: the entry of `[Element] + t` is the entry of `t` below the items, after an `@`. */
  lemma {:induction false} StepDownElement(acc: seq<ScopeAnnotation>, prefix: Option<string>, separator: string, s: Schema,
                                           c: Schema, paths: seq<seq<Step>>)
    requires Child(s, Element) == Some(c)
    ensures MapEntries(acc, prefix, separator, s, Prepend(Element, paths))
         == MapEntries(acc + Own(s), prefix, "@", c, paths)
  {
    forall j | 0 <= j < |paths|
      ensures EntryFor(acc, prefix, separator, s, [Element] + paths[j])
           == EntryFor(acc + Own(s), prefix, "@", c, paths[j])
    {
      EntryDownElement(acc, prefix, separator, s, c, paths[j]);
    }
  }

  lemma {:induction false} EntryDownElement(acc: seq<ScopeAnnotation>, prefix: Option<string>, separator: string, s: Schema,
                                            c: Schema, p: seq<Step>)
    requires Child(s, Element) == Some(c)
    ensures EntryFor(acc, prefix, separator, s, [Element] + p) == EntryFor(acc + Own(s), prefix, "@", c, p)
  {
    var t := [Element] + p;
    assert t[0] == Element && t[1..] == p;
    assert Extend(prefix, separator, t) == Extend(prefix, "@", p);
    assert Chain(s, t) == Own(s) + Chain(c, p);
    assert acc + Chain(s, t) == (acc + Own(s)) + Chain(c, p);
  }

  lemma {:induction false} MapEntriesConcat(acc: seq<ScopeAnnotation>, prefix: Option<string>, separator: string, s: Schema, a: seq<seq<Step>>, b: seq<seq<Step>>)
    ensures MapEntries(acc, prefix, separator, s, a + b)
         == MapEntries(acc, prefix, separator, s, a) + MapEntries(acc, prefix, separator, s, b)
  {
    var l := MapEntries(acc, prefix, separator, s, a + b);
    var r := MapEntries(acc, prefix, separator, s, a) + MapEntries(acc, prefix, separator, s, b);
    forall j | 0 <= j < |l| ensures l[j] == r[j] {
      assert l[j] == EntryFor(acc, prefix, separator, s, (a + b)[j]);
      if j >= |a| {
        assert (a + b)[j] == b[j - |a|];
        assert r[j] == EntryFor(acc, prefix, separator, s, b[j - |a|]);
      } else {
        assert (a + b)[j] == a[j];
        assert r[j] == EntryFor(acc, prefix, separator, s, a[j]);
      }
    }
  }

  /** `_scopesPerProp` emits exactly the entries of the leaf paths below `s`, in order. */
  lemma {:induction false} ScopesPerPropEnumerates(s: Schema, acc: seq<ScopeAnnotation>, prefix: Option<string>, separator: string)
    requires WellFormed(s)
    ensures Flatten(ScopesPerProp(s, acc, prefix, separator)) == MapEntries(acc, prefix, separator, s, LeafPaths(s))
    decreases s, PropertyCount(s) + 1
  {
    if IsLeaf(s) {
      assert Chain(s, []) == Own(s);
    } else if s.kind == Some("object") {
      if s.properties.Declared? {
        PropertiesEnumerate(s, 0, acc, prefix, separator);
      }
    } else if s.items.Some? {
      var c := s.items.value;
      ScopesPerPropEnumerates(c, acc + Own(s), prefix, "@");
      StepDownElement(acc, prefix, separator, s, c, LeafPaths(c));
    }
  }

  lemma {:induction false} PropertiesEnumerate(s: Schema, i: nat, acc: seq<ScopeAnnotation>, prefix: Option<string>, separator: string)
    requires WellFormed(s) && s.properties.Declared? && i <= |s.properties.list|
    ensures PropertiesScopes(s, i, acc + Own(s), prefix, separator)
         == MapEntries(acc, prefix, separator, s, PropertiesLeafPaths(s, i))
    decreases s, |s.properties.list| - i
  {
    var ps := s.properties.list;
    if i < |ps| {
      assert ps[i] in ps;
      var c := ps[i].schema;
      var key := JoinPrefix(prefix, separator, ps[i].name);
      var here := Prepend(Key(ps[i].name), LeafPaths(c));
      var rest := PropertiesLeafPaths(s, i + 1);
      PropertiesScopesStep(s, i, acc + Own(s), prefix, separator);
      PropertiesLeafPathsStep(s, i);
      ScopesPerPropEnumerates(c, acc + Own(s), Some(key), ".");
      PropertiesEnumerate(s, i + 1, acc, prefix, separator);
      LookupDistinct(ps, i);
      StepDownKey(acc, prefix, separator, s, ps[i].name, c, LeafPaths(c));
      MapEntriesConcat(acc, prefix, separator, s, here, rest);
    }
  }

  lemma {:induction false} PropertiesScopesStep(s: Schema, i: nat, acc: seq<ScopeAnnotation>, prefix: Option<string>, separator: string)
    requires s.properties.Declared? && i < |s.properties.list|
    ensures var p := s.properties.list[i];
            (PropertiesScopes(s, i, acc, prefix, separator)
               == Flatten(ScopesPerProp(p.schema, acc, Some(JoinPrefix(prefix, separator, p.name)), "."))
                  + PropertiesScopes(s, i + 1, acc, prefix, separator))
  {
  }

  lemma {:induction false} PropertiesLeafPathsStep(s: Schema, i: nat)
    requires s.properties.Declared? && i < |s.properties.list|
    ensures var p := s.properties.list[i];
            PropertiesLeafPaths(s, i) == Prepend(Key(p.name), LeafPaths(p.schema)) + PropertiesLeafPaths(s, i + 1)
  {
  }

  /** Extending a rendered path by more steps renders the longer path. */
  lemma {:induction false} ExtendRenders(init: seq<Step>, rest: seq<Step>)
    ensures Extend(RenderPath(init), SepAfter(init), rest) == RenderPath(init + rest)
    decreases |rest|
  {
    if rest == [] {
      assert init + rest == init;
    } else {
      var next := init + [rest[0]];
      assert next[..|next| - 1] == init;
      assert next + rest[1..] == init + rest;
      ExtendRenders(next, rest[1..]);
    }
  }

  /** The entries of an index, whichever shape it has. */
  function IndexEntries(index: Index): seq<FieldScope> {
    match index
    case Single(e) => [e]
    case Entries(es) => es
  }

  /**
   * `transformSchema` holds one entry per leaf path, depth-first: the path rendered with
   * `.` and `@`, and the read and write sets are the unions of the annotations of every
   * node from the root down to that leaf, both included.
   */
  lemma {:induction false} TransformSchemaMatchesLeaves(s: Schema)
    requires WellFormed(s)
    ensures var es := IndexEntries(TransformSchema(s));
            var paths := LeafPaths(s);
            && |es| == |paths|
            && forall j :: 0 <= j < |paths| ==>
                 es[j] == FieldScope(RenderPath(paths[j]), Scopes(ReadKeys(Chain(s, paths[j])), WriteKeys(Chain(s, paths[j]))))
  {
    ScopesPerPropEnumerates(s, [], None, ".");
    var paths := LeafPaths(s);
    forall j | 0 <= j < |paths|
      ensures Extend(None, ".", paths[j]) == RenderPath(paths[j])
      ensures [] + Chain(s, paths[j]) == Chain(s, paths[j])
    {
      ExtendRenders([], paths[j]);
      assert [] + paths[j] == paths[j];
    }
  }

  // ---------------------------------------------------------------------------
  // One entry per leaf

  lemma {:induction false} StepsPrependedReach(x: Step, s: Schema, c: Schema, paths: seq<seq<Step>>, steps: seq<Step>)
    requires Child(s, x) == Some(c)
    requires forall t :: t in paths <==> ReachesLeaf(c, t)
    requires if x.Key? then s.kind == Some("object") else s.kind == Some("array")
    ensures steps in Prepend(x, paths) <==> (steps != [] && steps[0] == x && ReachesLeaf(s, steps))
  {
    if steps in Prepend(x, paths) {
      var j :| 0 <= j < |paths| && Prepend(x, paths)[j] == steps;
      assert steps[1..] == paths[j];
    }
    if steps != [] && steps[0] == x && ReachesLeaf(s, steps) {
      assert steps[1..] in paths;
      var j :| 0 <= j < |paths| && paths[j] == steps[1..];
      assert Prepend(x, paths)[j] == steps;
    }
  }

  /** The leaf paths are exactly the paths that descend through objects and arrays to a leaf. */
  lemma {:induction false} LeafPathsExactlyLeaves(s: Schema, steps: seq<Step>)
    requires WellFormed(s)
    ensures steps in LeafPaths(s) <==> ReachesLeaf(s, steps)
    decreases s, PropertyCount(s) + 1
  {
    if IsLeaf(s) {
    } else if s.kind == Some("object") {
      if s.properties.Declared? {
        PropertiesLeafPathsReach(s, 0, steps);
        if ReachesLeaf(s, steps) {
          var ps := s.properties.list;
          var k :| 0 <= k < |ps| && ps[k].name == steps[0].name && Lookup(ps, steps[0].name).value == ps[k].schema;
        }
      }
    } else if s.items.Some? {
      var c := s.items.value;
      forall t ensures t in LeafPaths(c) <==> ReachesLeaf(c, t) {
        LeafPathsExactlyLeaves(c, t);
      }
      StepsPrependedReach(Element, s, c, LeafPaths(c), steps);
    }
  }

  lemma {:induction false} PropertiesLeafPathsReach(s: Schema, i: nat, steps: seq<Step>)
    requires WellFormed(s) && s.kind == Some("object") && s.properties.Declared? && i <= |s.properties.list|
    ensures steps in PropertiesLeafPaths(s, i) <==>
              (&& steps != [] && steps[0].Key? && ReachesLeaf(s, steps)
               && exists k :: i <= k < |s.properties.list| && s.properties.list[k].name == steps[0].name)
    decreases s, |s.properties.list| - i
  {
    var ps := s.properties.list;
    if i < |ps| {
      assert ps[i] in ps;
      var c := ps[i].schema;
      LookupDistinct(ps, i);
      forall t ensures t in LeafPaths(c) <==> ReachesLeaf(c, t) {
        LeafPathsExactlyLeaves(c, t);
      }
      StepsPrependedReach(Key(ps[i].name), s, c, LeafPaths(c), steps);
      PropertiesLeafPathsReach(s, i + 1, steps);
      if steps != [] && steps[0].Key? && exists k :: i <= k < |ps| && ps[k].name == steps[0].name {
        var k :| i <= k < |ps| && ps[k].name == steps[0].name;
        if k == i {
          assert steps[0] == Key(ps[i].name);
        }
      }
    }
  }

  // ---------------------------------------------------------------------------
  // Inheritance only adds

  /** Going one step further down appends the new node's own annotation to the chain, and nothing else. */
  lemma {:induction false} InheritanceOnlyAdds(s: Schema, steps: seq<Step>, x: Step)
    requires NodeAt(s, steps + [x]).Some?
    ensures Chain(s, steps + [x]) == Chain(s, steps) + Own(NodeAt(s, steps + [x]).value)
    decreases |steps|
  {
    var longer := steps + [x];
    if steps == [] {
      assert longer == [x] && longer[1..] == [];
      assert NodeAt(s, longer) == Child(s, x);
      assert Chain(s, longer) == Own(s) + Chain(Child(s, x).value, []);
    } else {
      assert longer[0] == steps[0] && longer[1..] == steps[1..] + [x];
      var c := Child(s, steps[0]).value;
      assert NodeAt(s, longer) == NodeAt(c, longer[1..]);
      InheritanceOnlyAdds(c, steps[1..], x);
      assert Chain(s, longer) == Own(s) + Chain(c, steps[1..] + [x]);
      assert Chain(s, steps) == Own(s) + Chain(c, steps[1..]);
    }
  }

  lemma {:induction false} NodeAtPrefix(s: Schema, steps: seq<Step>, k: nat)
    requires NodeAt(s, steps).Some? && k <= |steps|
    ensures NodeAt(s, steps[..k]).Some?
    decreases |steps|
  {
    if k > 0 {
      var c := Child(s, steps[0]).value;
      assert steps[..k][0] == steps[0] && steps[..k][1..] == steps[1..][..k - 1];
      NodeAtPrefix(c, steps[1..], k - 1);
    }
  }

  lemma {:induction false} ChainOfPrefix(s: Schema, steps: seq<Step>, k: nat)
    requires NodeAt(s, steps).Some? && k <= |steps|
    ensures Chain(s, steps[..k]) <= Chain(s, steps)
    decreases |steps|
  {
    if k > 0 {
      var c := Child(s, steps[0]).value;
      assert steps[..k][0] == steps[0] && steps[..k][1..] == steps[1..][..k - 1];
      ChainOfPrefix(c, steps[1..], k - 1);
    }
  }

  /** A node's own scopes are among those of the chain that ends at it. */
  lemma {:induction false} OwnInChain(s: Schema, p: seq<Step>)
    requires NodeAt(s, p).Some?
    ensures ReadKeys(Own(NodeAt(s, p).value)) <= ReadKeys(Chain(s, p))
    ensures WriteKeys(Own(NodeAt(s, p).value)) <= WriteKeys(Chain(s, p))
  {
    if p == [] {
      assert Chain(s, p) == Own(s) + [];
    } else {
      var init := p[..|p| - 1];
      assert p == init + [p[|p| - 1]];
      InheritanceOnlyAdds(s, init, p[|p| - 1]);
      KeysOfConcat(Chain(s, init), Own(NodeAt(s, p).value));
    }
  }

  lemma {:induction false} PrefixKeys(a: seq<ScopeAnnotation>, b: seq<ScopeAnnotation>)
    requires a <= b
    ensures ReadKeys(a) <= ReadKeys(b) && WriteKeys(a) <= WriteKeys(b)
  {
    assert b == a + b[|a|..];
    KeysOfConcat(a, b[|a|..]);
  }

  /**
   * Every scope declared on a node on the way to a leaf, the root and the leaf included,
   * is required by that leaf's entry.
   */
  lemma {:induction false} AncestorScopesInherited(s: Schema, steps: seq<Step>, k: nat)
    requires ReachesLeaf(s, steps) && k <= |steps|
    ensures NodeAt(s, steps[..k]).Some?
    ensures var e := EntryFor([], None, ".", s, steps);
            && ReadKeys(Own(NodeAt(s, steps[..k]).value)) <= e.scopes.read
            && WriteKeys(Own(NodeAt(s, steps[..k]).value)) <= e.scopes.write
  {
    ReachesLeafHasNode(s, steps);
    NodeAtPrefix(s, steps, k);
    ChainOfPrefix(s, steps, k);
    OwnInChain(s, steps[..k]);
    PrefixKeys(Chain(s, steps[..k]), Chain(s, steps));
    assert [] + Chain(s, steps) == Chain(s, steps);
  }

  lemma {:induction false} ReachesLeafHasNode(s: Schema, steps: seq<Step>)
    requires ReachesLeaf(s, steps)
    ensures NodeAt(s, steps).Some? && IsLeaf(NodeAt(s, steps).value)
    decreases |steps|
  {
    if steps != [] {
      ReachesLeafHasNode(Child(s, steps[0]).value, steps[1..]);
    }
  }

  // ---------------------------------------------------------------------------
  // A schema without annotations

  predicate NoAnnotations(s: Schema)
    decreases s
  {
    && s.scopes.None?
    && (s.properties.Declared? ==> forall p :: p in s.properties.list ==> NoAnnotations(p.schema))
    && (s.items.Some? ==> NoAnnotations(s.items.value))
  }

  lemma {:induction false} ChainOfUnannotated(s: Schema, steps: seq<Step>)
    requires NoAnnotations(s)
    ensures Chain(s, steps) == []
    decreases |steps|
  {
    if steps != [] {
      match Child(s, steps[0])
      case None =>
      case Some(c) =>
        if steps[0].Key? {
          var ps := s.properties.list;
          var i :| 0 <= i < |ps| && ps[i].name == steps[0].name && c == ps[i].schema;
          assert ps[i] in ps;
        }
        ChainOfUnannotated(c, steps[1..]);
    }
  }

  /** A schema with no `scopes` anywhere yields empty read and write sets for every entry. */
  lemma {:induction false} NoAnnotationsNoScopes(s: Schema)
    requires WellFormed(s) && NoAnnotations(s)
    ensures forall e :: e in IndexEntries(TransformSchema(s)) ==> e.scopes.read == {} && e.scopes.write == {}
  {
    TransformSchemaMatchesLeaves(s);
    var paths := LeafPaths(s);
    forall j | 0 <= j < |paths| ensures Chain(s, paths[j]) == [] {
      ChainOfUnannotated(s, paths[j]);
    }
  }

  // ---------------------------------------------------------------------------
  // Paths

  /** Array items keep the parent's path; their own keys follow an `@`, with no index. */
  lemma {:induction false} ArrayPathExample()
    ensures RenderPath([Key("someCollection"), Key("items"), Element, Key("details")])
         == Some("someCollection.items@details")
    ensures RenderPath([Key("tags"), Element]) == Some("tags")
    ensures RenderPath([Element, Key("id")]) == Some("id")
    ensures RenderPath([Key("a"), Element, Element, Key("b")]) == Some("a@b")
  {
    var a := [Key("someCollection")];
    var b := [Key("someCollection"), Key("items")];
    var c := [Key("someCollection"), Key("items"), Element];
    var d := [Key("someCollection"), Key("items"), Element, Key("details")];
    assert d[..3] == c && c[..2] == b && b[..1] == a && a[..0] == [];
    assert RenderPath(a) == Some("someCollection");
    assert "someCollection" + "." + "items" == "someCollection.items";
    assert RenderPath(b) == Some("someCollection.items");
    assert RenderPath(c) == Some("someCollection.items");
    assert "someCollection.items" + "@" + "details" == "someCollection.items@details";
    var q1 := [Key("a")];
    var q2 := [Key("a"), Element];
    var q3 := [Key("a"), Element, Element];
    var q4 := [Key("a"), Element, Element, Key("b")];
    assert q4[..3] == q3 && q3[..2] == q2 && q2[..1] == q1 && q1[..0] == [];
    assert RenderPath(q3) == Some("a");
    assert "a" + "@" + "b" == "a@b";
    var t := [Key("tags"), Element];
    assert t[..1] == [Key("tags")];
    var u := [Element, Key("id")];
    assert u[..1] == [Element];
  }
}

=== FILE: scope_filter_proofs.dfy ===
/**
 * The field filter of `filterProps` against the containment it is meant to decide, and
 * what the counting shortcut does when the granted list repeats a scope.
 */
module ScopeFilterProofs {
  import opened Wrappers
  import opened SchemaScopes

  predicate NoDuplicates(xs: seq<string>) {
    forall i, j :: 0 <= i < j < |xs| ==> xs[i] != xs[j]
  }

  function Elements(xs: seq<string>): set<string> {
    set x | x in xs
  }

  /** Without repeated grants the count is the number of required scopes that are granted. */
  lemma {:induction false} CountIsIntersection(granted: seq<string>, read: set<string>)
    requires NoDuplicates(granted)
    ensures CountGranted(granted, read) == |read * Elements(granted)|
  {
    if granted != [] {
      var x, rest := granted[0], granted[1..];
      NoDuplicatesTail(granted);
      CountIsIntersection(rest, read);
      assert granted == [x] + rest;
      assert Elements(granted) == {x} + Elements(rest);
      HeadCount(x, read, Elements(rest));
    }
  }

  lemma {:induction false} NoDuplicatesTail(granted: seq<string>)
    requires NoDuplicates(granted) && granted != []
    ensures NoDuplicates(granted[1..]) && granted[0] !in granted[1..]
  {
    var rest := granted[1..];
    forall i, j | 0 <= i < j < |rest| ensures rest[i] != rest[j] {
      assert rest[i] == granted[i + 1] && rest[j] == granted[j + 1];
    }
    forall i | 0 <= i < |rest| ensures rest[i] != granted[0] {
      assert rest[i] == granted[i + 1];
    }
  }

  /** Adding one scope not among the others adds one to the count exactly when it is required. */
  lemma {:induction false} HeadCount(x: string, read: set<string>, others: set<string>)
    requires x !in others
    ensures |read * ({x} + others)| == (if x in read then 1 else 0) + |read * others|
  {
    var here := read * {x};
    var there := read * others;
    assert read * ({x} + others) == here + there;
    assert here * there == {};
    assert |here| == (if x in read then 1 else 0) by {
      if x in read { assert here == {x}; } else { assert here == {}; }
    }
  }

  lemma {:induction false} SubsetOfSameSize(a: set<string>, b: set<string>)
    requires a <= b && |a| == |b|
    ensures a == b
  {
    var d := b - a;
    assert b == a + d && a * d == {};
    assert |b| == |a| + |d|;
  }

  /**
   * When the granted list repeats no scope, the count test of `filterProps` admits a field
   * exactly when every scope it requires is granted.
   */
  lemma {:induction false} CountMatchesContainment(read: set<string>, granted: seq<string>)
    requires NoDuplicates(granted)
    ensures CountAllows(read, granted) <==> SubsetAllows(read, granted)
  {
    CountIsIntersection(granted, read);
    var both := read * Elements(granted);
    if CountAllows(read, granted) && |read| != 0 {
      SubsetOfSameSize(both, read);
      assert forall x :: x in read ==> x in both;
    }
    if SubsetAllows(read, granted) {
      assert both == read;
    }
  }

  lemma {:induction false} AllowedPathsAgree(es: seq<FieldScope>, granted: seq<string>, from: nat)
    requires NoDuplicates(granted) && from <= |es|
    ensures AllowedPaths(es, granted, true, from) == AllowedPaths(es, granted, false, from)
    decreases |es| - from
  {
    if from < |es| {
      CountMatchesContainment(es[from].scopes.read, granted);
      AllowedPathsAgree(es, granted, from + 1);
    }
  }

  /** With a duplicate-free granted list, `filterProps` computes the intended containment filter. */
  lemma {:induction false} FilterPropsOnDistinctGrants(index: Index, requested: seq<string>, granted: seq<string>)
    requires NoDuplicates(granted)
    ensures FilterProps(index, requested, granted) == FilterPropsIntended(index, requested, granted)
  {
    if index.Entries? {
      AllowedPathsAgree(index.entries, granted, 0);
    }
  }

  /**
   * A repeated grant misleads the count both ways: two copies of `a` pass for `{a, b}`, and
   * two copies of `a` fail `{a}`.
   */
  lemma {:induction false} DuplicateGrantsMisjudge()
    ensures CountAllows({"read:a", "read:b"}, ["read:a", "read:a"])
    ensures !SubsetAllows({"read:a", "read:b"}, ["read:a", "read:a"])
    ensures !CountAllows({"read:a"}, ["read:a", "read:a"])
    ensures SubsetAllows({"read:a"}, ["read:a", "read:a"])
    ensures var index := Entries([FieldScope(Some("secret"), Scopes({"read:a", "read:b"}, {}))]);
            && FilterProps(index, [], ["read:a", "read:a"]) == Success([Some("secret")])
            && FilterPropsIntended(index, [], ["read:a", "read:a"]) == Success([])
  {
    var two := ["read:a", "read:a"];
    assert two[1..] == ["read:a"] && two[1..][1..] == [];
    assert |{"read:a", "read:b"}| == 2;
    assert "read:b" !in two;
    assert |{"read:a"}| == 1;
    var e := FieldScope(Some("secret"), Scopes({"read:a", "read:b"}, {}));
    assert CountGranted(two, e.scopes.read) == 2;
    assert AllowedPaths([e], two, true, 0) == [Some("secret")];
    assert AllowedPaths([e], two, false, 0) == [];
  }
}

=== FILE: sequences.dfy ===
/** Order-preserving selection on sequences, shared by the filters of both cores. */
module Sequences {

  /** `a` is `b` with some elements left out and the rest kept in order. */
  ghost predicate SubsequenceOf<T>(a: seq<T>, b: seq<T>) {
    if a == [] then true
    else if b == [] then false
    else (a[0] == b[0] && SubsequenceOf(a[1..], b[1..])) || SubsequenceOf(a, b[1..])
  }

  lemma {:induction false} SubsequenceDropsHead<T>(a: seq<T>, b: seq<T>)
    requires b != [] && SubsequenceOf(a, b[1..])
    ensures SubsequenceOf(a, b)
  {
  }

  lemma {:induction false} SubsequenceKeepsHead<T>(a: seq<T>, b: seq<T>)
    requires b != [] && SubsequenceOf(a, b[1..])
    ensures SubsequenceOf([b[0]] + a, b)
  {
    assert ([b[0]] + a)[1..] == a;
  }

  /**
   * The positions at or after `from` whose element satisfies `p`, each once and in
   * increasing order: what `xs.filter(p)` keeps, by position.
   */
  function IndicesWhere<T>(xs: seq<T>, p: T -> bool, from: nat): (idx: seq<nat>)
    requires from <= |xs|
    decreases |xs| - from
    ensures |idx| <= |xs| - from
    ensures forall k :: 0 <= k < |idx| ==> from <= idx[k] < |xs| && p(xs[idx[k]])
    ensures forall k, l :: 0 <= k < l < |idx| ==> idx[k] < idx[l]
    ensures forall i :: from <= i < |xs| && p(xs[i]) ==> i in idx
  {
    if from == |xs| then []
    else
      var rest := IndicesWhere(xs, p, from + 1);
      if p(xs[from]) then [from] + rest else rest
  }

  /** The first position is kept exactly when its element satisfies `p`. */
  lemma {:induction false} IndicesWhereStep<T>(xs: seq<T>, p: T -> bool, from: nat)
    requires from < |xs|
    ensures IndicesWhere(xs, p, from)
         == if p(xs[from]) then [from] + IndicesWhere(xs, p, from + 1) else IndicesWhere(xs, p, from + 1)
  {
  }
}

=== FILE: strings.dfy ===
/** String helpers standing in for the JavaScript string builtins the core calls. */
module Strings {

  /** `s.toLowerCase()`, restricted to the ASCII letters. */
  function ToLower(s: string): (r: string)
    ensures |r| == |s|
    ensures forall i :: 0 <= i < |s| ==> r[i] == LowerChar(s[i])
  {
    if s == [] then [] else [LowerChar(s[0])] + ToLower(s[1..])
  }

  function LowerChar(c: char): char {
    if 'A' <= c <= 'Z' then (c as int + 32) as char else c
  }

  /** `s.toUpperCase()`, restricted to the ASCII letters. */
  function ToUpper(s: string): (r: string)
    ensures |r| == |s|
    ensures forall i :: 0 <= i < |s| ==> r[i] == UpperChar(s[i])
  {
    if s == [] then [] else [UpperChar(s[0])] + ToUpper(s[1..])
  }

  function UpperChar(c: char): char {
    if 'a' <= c <= 'z' then (c as int - 32) as char else c
  }

  /** `s.indexOf(p) === 0`: `p` occurs at the very start of `s`. */
  predicate IsPrefix(p: string, s: string) {
    |p| <= |s| && s[..|p|] == p
  }

  /** `xs.join(sep)`. */
  function Join(xs: seq<string>, sep: string): string {
    if xs == [] then ""
    else if |xs| == 1 then xs[0]
    else xs[0] + sep + Join(xs[1..], sep)
  }
}

=== FILE: wrappers.dfy ===
/** Failure-compatible wrappers shared by every module of the model. */
module Wrappers {

  /** An optional value: `None` stands for JavaScript's `undefined`. */
  datatype Option<+T> = None | Some(value: T)

  /** The outcome of an operation that can throw or reject. */
  datatype Result<+T, +E> = Success(value: T) | Failure(error: E)
}
